=== FILE: README.md ===
# Kundenstopper in Dafny

Kundenstopper is a small web service that shows PDF documents on a public display and lets an
administrator upload, rename, delete and pin them and change three presentation settings.
This project models its core: the persistence layer (`models.py`) and the request handlers of
`app.py`. Both are treated as pure transitions over one immutable state, which holds:

- the `pdf_files` table, as a map from id to row;
- the `settings` table, as a map from key to value;
- SQLite's AUTOINCREMENT counter for `pdf_files`;
- the set of file names in the upload folder.

The main result is `App.DisplayAfterAnyRequests`. Start the application on an empty database
and apply any sequence of administrative requests and restarts. Then, in the state reached:

- stored names are pairwise distinct;
- every row has its file in the upload folder;
- `selected_pdf_id` is `"0"` or the id of a live row;
- `/api/current-pdf` returns a document exactly when the table is not empty, and never fails.

Files:

- `wrappers.dfy`: `Option`.
- `text.dfy`: the pieces of Python string and integer behaviour the handlers use:
  - `str.strip()`;
  - `s.lower().endswith('.pdf')`;
  - `int(s)` on a string;
  - `str(n)`.
- `store.dfy`: `models.py`. The operations that can raise end as `Committed(value, db)` or
  `RolledBack(error)`: the insert, and every query that binds an integer, since SQLite takes
  only integers in its signed 64-bit range. A rollback hands back no database, so the caller
  keeps the one it had. The other operations return their value directly.
- `app.dfy`: the handlers as functions from a state to a `Step` (response and next state), plus:
  - the invariant `Valid`;
  - one preservation lemma per handler;
  - the lemmas over request sequences.

Flask's flashes become `Flash(category, message)`, and every handler's redirect becomes
`Redirect(flashes)`. An exception that escapes a handler becomes `ServerError`.
These are parameters of the model:

- the uuid (`token`);
- the clock (`now`);
- `secure_filename`, an arbitrary function;
- the saved file's size.

## Model

| member | source | states |
|---|---|---|
| Store.InitDb | models.py:44-63 | Each of the four defaults ("0", "10", "#ffffff", "progress") is written only when its key is absent. Present settings, all rows and the id counter are kept. |
| Store.InitDbIdempotent | models.py:44-63 | Running `init_db` again, as every application start does, changes nothing. |
| Store.SetSetting | models.py:75-81 | `INSERT OR REPLACE` adds the key to the settings and leaves rows and the id counter alone. |
| Store.GetSetting | models.py:66-72 | The value of the row for the key when there is one, and the caller's default otherwise, so the result is the default or a stored value. |
| Store.SetThenGet | models.py:66-81 | Reading a key after `set_setting` gives the written value, whatever the default. Every other key reads as before. |
| Store.GetAbsentSetting | models.py:66-72 | `get_setting` on an absent key returns the caller's default. |
| Store.NextId | models.py:29 | The id AUTOINCREMENT hands out is above the recorded counter and above every present id, so ids are never reused. |
| Store.AddPdf | models.py:84-92 | The insert rolls back exactly when the file size lies outside SQLite's signed 64-bit range, the stored name is already used (UNIQUE) or the id space is exhausted. Otherwise it adds exactly one row, stamped with `now`, under a new id above every earlier one. It returns that id and raises the counter to it. |
| Store.AddPdfGrowsByOne | models.py:84-92 | A committed insert grows the table by exactly one row and keeps stored names pairwise distinct. |
| Store.InsertFreshRow | models.py:28-30 | A row under an unused id with an unused stored name grows the table by exactly one and keeps stored names pairwise distinct. |
| Store.InsertFreshName | models.py:30 | The UNIQUE constraint on `filename` survives adding a row whose stored name no row has. |
| Store.GetPdf | models.py:95-100 | Raises exactly when the id lies outside SQLite's signed 64-bit range. Otherwise it returns the row with that id, or none when no row has it, and changes nothing. |
| Store.Listing | models.py:114-116 | The full listing holds every row exactly once, as stored, in non-increasing `upload_date` order. |
| Store.LimitOffset | models.py:107-111 | `LIMIT ? OFFSET ?` returns the consecutive window starting at the offset. A negative offset counts as 0. The window holds at most `limit` rows when the limit is positive and has no bound when it is negative. |
| Store.GetAllPdfs | models.py:103-116 | A falsy limit (None or 0) lists every row newest first and binds nothing. Any other limit raises exactly when the limit or the offset lies outside the signed 64-bit range, and otherwise returns that window of the same listing, with at most `limit` rows. |
| Store.GetPdfCount | models.py:119-122 | The count is the length of the full listing. |
| Store.CountMatchesListing | models.py:103-122 | `get_pdf_count()` equals the number of rows `get_all_pdfs()` returns, with no limit or with limit 0. |
| Store.UpdatePdfName | models.py:125-131 | Raises exactly when the id lies outside the signed 64-bit range, changing nothing. Otherwise only `original_name` of the row with that id changes. A missing id leaves the database untouched. |
| Store.DeletePdf | models.py:134-141 | Raises exactly when the id lies outside the signed 64-bit range, changing nothing. Otherwise it returns the row's stored name and removes exactly that row when it exists. Otherwise returns None and changes nothing. Settings and the counter never change. |
| Store.GetNewestPdf | models.py:144-149 | None exactly when the table is empty. Otherwise it returns a stored row whose `upload_date` is at least every other row's. |
| Text.IsSpace | app.py:199 | The six ASCII blanks count as whitespace for `strip()`, and no digit, sign or underscore does. |
| Text.TrimStart | app.py:199 | The result is a suffix of the input that does not start with whitespace, and everything dropped is whitespace. |
| Text.TrimEnd | app.py:199 | The result is a prefix of the input that does not end with whitespace, and everything dropped is whitespace. |
| Text.Strip | app.py:199 | The result is the input without its surrounding whitespace: a slice of the input with only whitespace before and after it and none at its own ends. |
| Text.TrimBoth | app.py:199 | Trimming the front and then the back leaves exactly such a slice. |
| Text.StripUnique | app.py:199 | Only one string is the input without its surrounding whitespace, so that description determines `strip()`. |
| Text.StripBlank | app.py:199-201 | `new_name.strip()` is empty exactly when the submitted name is all whitespace (or empty). |
| Text.StripTrimmed | app.py:199 | A string without whitespace at either end comes back from `strip()` unchanged. |
| Text.Lower | app.py:174 | `lower()` keeps the length and lowers each character on its own. |
| Text.LowerEndsWithPdf | app.py:174 | The lowered name ends in ".pdf" exactly when its last four characters lower to '.', 'p', 'd' and 'f'. |
| Text.HasPdfSuffix | app.py:174 | The test holds exactly when the lowered name ends in ".pdf". |
| Text.WithPdfSuffix | app.py:205-206 | The result always ends in ".pdf" (any case). It is the name itself exactly when the name already did, and the name plus ".pdf" otherwise. |
| Text.WithPdfSuffixIdempotent | app.py:205-206 | Applying the suffix rule twice is the same as applying it once. |
| Text.PyInt | app.py:80 | A string of at most 4300 decimal digits reads as its value, and a longer one raises (CPython's `sys.int_max_str_digits`). Text holding an information separator (U+001C to U+001F) raises, although `strip()` treats those as whitespace. Whatever `int()` returns can be written back by `str()`. |
| Text.PyIntOfPadded | app.py:80 | Whitespace around a digit string, none of it an information separator, is skipped: the padded text reads as the digits' value. |
| Text.ParseInteger | app.py:80 | On stripped text `int()` succeeds exactly for ASCII digits with single underscores between digits, optionally after one '+' or '-', when there are at most 4300 digits; leading zeros count and underscores do not. The value is that of the digits with the sign applied, a plain digit string of at most 4300 digits reads as its value, and `str()` of the result does not raise. |
| Text.DecimalParses | app.py:80 | Stripped decimal digits read as their value when there are at most 4300 of them and raise otherwise. |
| Text.PyIntOfBlank | app.py:80 | `int()` raises on text that is empty or all whitespace. |
| Text.PyIntOfZero | app.py:143 | `int('0')` is 0: the "track the newest" selection reads as zero. |
| Text.PyIntOfTen | app.py:83 | The default interval text "10" reads as 10. |
| Text.NatToString | models.py:80 | `str(n)` is a non-empty string of decimal digits, and it starts with '0' only for zero itself. |
| Text.DigitsOfNatToString | models.py:80 | The digits `str(n)` writes have the value `n`. |
| Text.PyIntOfNatToString | models.py:80 | `int(str(n)) == n` when `str(n)` has at most 4300 digits, and `int()` raises on a longer one: an id or interval stored by `set_setting` reads back as written. |
| Text.NatToStringLength | models.py:80 | `str(n)` of a number below `10^k` has at most `k` digits. |
| Text.DigitsFit | models.py:80 | Writing back the value of a digit string takes no more digits than the string had, so an interval `int()` read can be written by `str()`. |
| Text.NatToStringZero | app.py:77 | `str(n)` is "0" exactly when `n` is 0, so a pinned id is never mistaken for "track the newest". |
| App.StoredName | app.py:180-181 | Every generated stored name has the shape "token.pdf". |
| App.Startup | app.py:25-28 | Importing the application runs `init_db`. Rows, the counter, the upload folder and every present setting survive. |
| App.StartupValid | app.py:25-28 | The first start on an empty database, and any restart of a valid state, gives a valid state. |
| App.SelectionParses | app.py:143 | In a valid state `int(selected_pdf_id)` never raises. It reads 0 for "0" and a live id otherwise, which SQLite can bind. |
| App.IntervalParses | app.py:144 | In a valid state `int(cycle_interval)` never raises. |
| App.SelectedRow | app.py:74-80 | For "0" it returns the newest row, none exactly when the table is empty. For anything else it returns the row whose id is `int(selected_id)`, with no fallback for a dangling id. It is defined only where `int()` succeeds and gives an id SQLite can bind. |
| App.RowIdPrintable | models.py:80 | An id SQLite can bind has at most 19 digits, so `str(pdf_id)` does not raise and `int()` reads it back. |
| App.PinnedRowSelected | app.py:74-80 | When the selection holds `str(id)` of a live row, the display's selection resolves to exactly that row. |
| App.CurrentPdf | app.py:74-94 | Fails exactly when an `int()` raises or the selected id lies outside the signed 64-bit range. Reports no document exactly when the selection resolves to nothing. When it shows a document, that is the resolved row's stored and display names with the three presentation settings. It returns no state, so it changes nothing. |
| App.CurrentPdfDefaults | app.py:83-85 | With no presentation settings stored, the display uses 10, "#ffffff" and "progress". |
| App.DisplayAvailable | app.py:74-94 | In a valid state the display shows a document exactly when the table is not empty, and never fails. |
| App.UploadPdf | app.py:164-192 | A missing file, an empty filename or a name not ending in ".pdf" is rejected with its message, and nothing changes. Otherwise the file "token.pdf" is saved first, and the insert fails exactly when the size lies outside the signed 64-bit range, that name is taken or ids are exhausted. A failed insert leaves the database as it was, but the saved file stays. On success the one new row holds the stored name, the secured original name, `now` and the size. |
| App.UploadPreservesValid | app.py:178-189 | Whether or not the insert succeeds, the state stays valid. A successful upload adds exactly one row and advances the counter by one. |
| App.ValidAfterInsert | app.py:185-189 | Adding a row under a fresh id within range, with a generated stored name whose file is saved, keeps the state valid. |
| App.UploadThenDisplay | app.py:74-78 | While the display tracks the newest document, an upload dated after every stored row is what it shows next. |
| App.RenameTo | app.py:201-210 | An empty stripped name is refused and nothing changes. An id outside the signed 64-bit range makes the update raise, and nothing changes. Otherwise only that row's display name changes, to the name with ".pdf" appended unless it already ends so. Success is reported even for a missing id, which changes nothing. |
| App.RenamePdf | app.py:195-210 | A missing or all-whitespace `new_name` field, and only that, is refused with the "empty name" message and changes nothing. Otherwise, for an id within range, the response is success and the row's display name becomes the stripped field, with ".pdf" appended unless it already ends so. Stored names, files, settings, the counter and every other row stay as they were. |
| App.ValidIgnoresDisplayNames | models.py:125-131 | Changing only display names keeps the state valid. |
| App.RenameKeepsStoredNames | models.py:125-131 | A rename changes no stored name. |
| App.RenamePreservesValid | app.py:195-210 | Renaming keeps the state valid. |
| App.DeleteWithSelection | app.py:217-233 | An id outside the signed 64-bit range makes the delete raise, and nothing changes. A missing id reports "not found" and changes nothing. An existing row is removed together with its file. The selection goes back to "0" exactly when it equalled the id, and no other setting changes. When `int()` on the selection raises, the row and file are already gone and the response is an error. |
| App.DeletePdfFile | app.py:213-233 | An id outside the signed 64-bit range raises and changes nothing. A missing id reports "not found" and changes nothing. After any other call no row has the id. No call adds a row. |
| App.ValidAfterRemovingRow | app.py:217-223 | Removing a row and its file keeps the state valid when the selection stays live. |
| App.DeleteWithSelectionPreservesValid | app.py:217-233 | With the selection read as its decimal value, deleting keeps the state valid, and an existing row is deleted with the success message. |
| App.DeletePreservesValid | app.py:217-233 | Deleting keeps the state valid. In a valid state an existing row is always deleted with the success message. |
| App.DeletePinnedThenNewest | app.py:225-227 | Deleting the pinned document sets the selection to "0". The display then shows a document of maximal upload date if any is left, and reports none otherwise. |
| App.SelectPdf | app.py:240-248 | An id outside the signed 64-bit range makes `get_pdf` raise, and nothing changes. When the row exists, only `selected_pdf_id` changes, to `str(id)`, with the success message. Otherwise it reports "not found" and changes nothing. |
| App.SelectThenDisplay | app.py:240-243 | After selecting an existing row, the display shows exactly that row. |
| App.SelectNewest | app.py:253-257 | Sets the selection to "0" unconditionally and changes nothing else. |
| App.SelectPreservesValid | app.py:236-248 | Pinning an existing or missing id keeps the state valid. |
| App.SelectNewestPreservesValid | app.py:253-257 | Returning to "track the newest" keeps the state valid. |
| App.FormInt | app.py:264 | `form.get(key, type=int)` is None for a missing key or text `int()` rejects, blank text, more than 4300 digits and information separators included, and the value `int()` gives otherwise. A digit string of at most 4300 digits reads as its value, and any value read can be written back by `str()`. |
| App.ReadSettingsForm | app.py:264-266 | The interval is read as App.FormInt reads it. The colour and indicator are their fields without the surrounding whitespace. Missing fields read as no interval and as empty text. |
| App.IntervalOk | app.py:271 | The interval is accepted exactly when it is a positive integer. None and 0 are refused. |
| App.ColorOk | app.py:277 | The colour is accepted exactly when it has seven characters and starts with '#'. The other six are not checked. |
| App.IndicatorOk | app.py:283 | The indicator is accepted exactly when it is "countdown", "progress" or "none". |
| App.IntervalText | app.py:271-272 | For an interval `str()` can write, the stored text is a non-empty string of at most 4300 decimal digits. |
| App.IntervalTextReadsBack | app.py:272 | `int()` reads the stored interval text back as the submitted value. |
| App.LongIntervalRefused | app.py:264-274 | A `cycle_interval` of more than 4300 digits is refused with the interval error, and the stored interval stays. |
| App.SeparatorIntervalRefused | app.py:264-274 | A `cycle_interval` holding an information separator, such as "\x1c5", is refused with the interval error, and the stored interval stays. |
| App.UnreadableIntervalRefused | app.py:264-274 | Any `cycle_interval` that `type=int` cannot read is refused with the interval error, and the stored interval stays. |
| App.StoreIfValid | app.py:271-284 | A valid field is written under its key; an invalid one leaves the database alone. No other key changes. |
| App.SettingsErrors | app.py:268-292 | There are no errors exactly when all three fields are valid. Each field's error appears exactly when that field is invalid, and every message is an error. |
| App.ApplySettings | app.py:268-294 | Rows, the counter and files stay. A valid interval too long for `str()` raises in the first `set_setting` and changes nothing; otherwise the handler redirects. It reports success exactly when all three fields are valid, and each invalid field adds its own error message. |
| App.ApplySettingsStores | app.py:270-286 | Unless the interval raises, each valid field is stored even when another field fails. An invalid field keeps its stored value. |
| App.ApplySettingsKeepsOthers | app.py:268-292 | Settings other than the three of the form are left as they were. |
| App.UpdateSettings | app.py:260-294 | The settings handler always redirects, since every interval `int()` reads can be written back by `str()`, and it never touches rows or files. |
| App.ApplySettingsPreservesValid | app.py:268-292 | Any settings submission keeps the state valid. |
| App.TotalPages | app.py:141 | There are zero pages exactly when there are zero rows. Otherwise `(pages - 1) * 10 < total <= pages * 10`. |
| App.PageOfPosition | app.py:136-141 | Position `i` of a listing falls on page `i / 10 + 1`, which lies between 1 and `total_pages`. |
| App.PageShowsListing | app.py:137-139 | Place `p` of page `n` is row `(n - 1) * 10 + p` of the full listing, and a page that holds a row is within `total_pages`. |
| App.PagesCoverListing | app.py:135-141 | Every row of the listing appears on the page its position gives, at the matching place. |
| App.PagesOutsideRange | app.py:137-139 | The window of a page past `total_pages` is empty, and the window of a page number below 1 is the first page's. Whether such a page's query can be bound at all is stated on App.PageListing. |
| App.PageListing | app.py:137-139 | The page's listing query raises exactly when `(page - 1) * 10` lies outside the signed 64-bit range. Otherwise it returns that page's rows. |
| App.Admin | app.py:131-157 | The admin page fails exactly when the page's offset lies outside the signed 64-bit range or `int()` raises on a stored setting. Otherwise it shows the requested page of the listing (page 1 when `?page=` is absent or unreadable, more than 4300 digits and information separators included), `total_pages` and the selection as an integer. |
| App.AdminAvailable | app.py:135-144 | In a valid state the admin page fails exactly when the page's offset lies outside the signed 64-bit range. Without `?page=` it never fails. |
| App.AdminLongPageShowsFirst | app.py:134 | In a valid state a `?page=` of more than 4300 digits, leading zeros included, shows page 1. |
| App.AdminSeparatorPageShowsFirst | app.py:134 | In a valid state a `?page=` holding an information separator, such as "\x1c2", shows page 1. |
| App.AdminUnreadablePageShowsFirst | app.py:134 | In a valid state any `?page=` that `type=int` cannot read shows page 1. |
| App.AdminWhenSettingsParse | app.py:135-144 | When both stored settings parse, only the page's offset can make the admin page fail. |
| App.HandlePreservesValid | app.py:160-294 | Every administrative handler and every restart keeps the state valid. |
| App.RunPreservesValid | app.py:160-294 | Any sequence of requests keeps a valid state valid. |
| App.DisplayAfterAnyRequests | app.py:74-94 | From the first start, after any sequence of requests: the state is valid, the display shows a document exactly when the table is not empty, and it never fails. |

## Left out

- Authentication is left out because it rests on bcrypt and Flask-Login sessions. This covers login, logout, `verify_password`, `load_user` and the `login_required` guards (app.py:30-56, app.py:103-128). Every handler is modelled as an authorised request.
- `index`, `display` and `serve_pdf` (app.py:59-68, app.py:97-100) only render a template or send a file.
- The `.mjs` MIME registration is left out, as is Flask's `MAX_CONTENT_LENGTH` limit. Werkzeug raises `RequestEntityTooLarge` when a handler first reads `request.files` or `request.form` (app.py:164, app.py:199, app.py:264), which is before the handler changes any state.
- `config.py` and `generate_password_hash.py` are left out: they are configuration loading and an interactive bcrypt tool.
- File contents are left out. The upload folder is a set of names, and the saved file's size is a parameter. If a generated name collides with an existing file, the overwritten content is not visible in the model; the failed insert is.
- `uuid.uuid4()`, `datetime.now()` and `secure_filename` are parameters. Upload dates are integers, so the text encoding of the TIMESTAMP column is not modelled. `now` is unconstrained, so upload dates in any order are covered.
- The order among rows with equal upload dates is open in the SQL, because it orders by `upload_date` only. The model lists equal dates by descending id, one order SQLite may produce. The contracts promise only date order.
- Text.PyInt: its own contract states only how a digit string reads. Blank text is covered by Text.PyIntOfBlank, and signs and underscores by Text.ParseInteger. Decimal digits of other scripts, such as Arabic-Indic or full-width digits, are rejected, although Python's `int()` accepts them. Stored settings are not affected, because `str()` writes ASCII digits.
- App.FormInt: inherits that gap. A form or query value written in non-ASCII decimal digits reads as None in the model, while Werkzeug's `type=int` gives its value.
- App.ReadSettingsForm: because of that gap, a `cycle_interval` written in non-ASCII digits is refused as invalid by the model, while the source stores it.
- App.Admin: because of that gap, a `?page=` written in non-ASCII digits shows page 1 in the model, while the source shows the page it denotes.
- The limit on integer strings is CPython's default `sys.int_max_str_digits` of 4300, in force since Python 3.11 and the 3.8.14, 3.9.14 and 3.10.7 security releases. An interpreter without the limit, or one configured with another value, is not modelled.
- The `<int:pdf_id>` URL converter is left out: the handlers take `pdf_id` as an already converted non-negative integer. Werkzeug's own digit checks and its handling of a path segment longer than `int()` reads are not modelled.
- Text.Lower: lowers ASCII letters only and keeps the length. Python's `lower()` lowers every cased letter and turns U+0130 into two characters. No character outside ASCII lowers to text ending in '.', 'p', 'd' or 'f', so Text.HasPdfSuffix and Text.WithPdfSuffix decide as the source does.
- App.DeletePdfFile: its own contract states only the "not found" case and that the row is gone. The full behaviour is stated on App.DeleteWithSelection, to which it passes `int(selected_pdf_id)` as read before the call. Reading the selection after the delete gives the same value, because the delete leaves settings alone.
- App.UpdateSettings: its own contract states only that it redirects and leaves rows and files alone. The field rules are stated on App.ApplySettings, App.ApplySettingsStores and App.ApplySettingsKeepsOthers over the form as App.ReadSettingsForm reads it.
- App.ApplySettings: its own contract states the response and that rows, the counter and files stay. Which settings it writes is stated on App.ApplySettingsStores and App.ApplySettingsKeepsOthers.
- Concurrent requests are left out. Handlers run one at a time, and the second connection `delete_pdf` opens through `get_pdf` sees the same data.

=== FILE: app.dfy ===
/** The request handlers of app.py as transitions over one state: the database and the
    names in the upload folder. Flask's redirects and flashed messages become a `Response`;
    an exception that escapes a handler (Python's `int()` on a malformed setting, a failed
    insert, an id or offset too large for SQLite) becomes `ServerError`. The uuid, the clock and `secure_filename` are parameters. */
module App {
  import opened Wrappers
  import opened Text
  import opened Store

  /** The database and the set of file names in the upload folder. */
  datatype State = State(db: Db, files: set<string>)

  /** `request.files['file']`: the client's filename and the size of the saved file. */
  datatype Upload = Upload(filename: string, size: nat)

  datatype Category = SuccessFlash | ErrorFlash

  /** The flashed messages, by meaning rather than by their German text. */
  datatype Message =
    | NoFileSelected
    | OnlyPdfAllowed
    | Uploaded(name: string)
    | EmptyName
    | Renamed
    | Deleted
    | FileNotFound
    | NowShowing(name: string)
    | ShowingNewest
    | InvalidInterval
    | InvalidColor
    | InvalidIndicator
    | SettingsSaved

  datatype Flash = Flash(category: Category, message: Message)

  /** A redirect to the admin page carrying the flashed messages, or an escaped exception. */
  datatype Response = Redirect(flashes: seq<Flash>) | ServerError

  /** What a handler answers and the state it leaves behind. */
  datatype Step = Step(response: Response, state: State)

  /** `request.form.get(key, default)`. */
  function FormGet(form: map<string, string>, key: string, default: string): string {
    if key in form then form[key] else default
  }

  /** `request.form.get(key, type=int)`: None when the key is absent or `int()` raises. */
  function FormInt(form: map<string, string>, key: string): (r: Option<int>)
    ensures key !in form ==> r.None?
    ensures key in form && ReadableDecimal(form[key]) ==> r == Some(DigitsValue(form[key]))
    ensures key in form && IsDecimal(form[key]) && |form[key]| > MaxStrDigits ==> r.None?
    ensures key in form && AllSpace(form[key]) ==> r.None?
    ensures key in form ==> r == PyInt(form[key])
    ensures r.Some? ==> Printable(r.value)
  {
    if key !in form then None
    else if AllSpace(form[key]) then PyIntOfBlank(form[key]); PyInt(form[key])
    else PyInt(form[key])
  }

  /** The stored name a generated token gets: `f"{uuid.uuid4()}.pdf"`. */
  function StoredName(token: string): (name: string)
    ensures IsStoredName(name)
  {
    token + ".pdf"
  }

  /** The shape of every stored name: something followed by the literal ".pdf". */
  predicate IsStoredName(name: string) {
    |name| >= 4 && name[|name| - 4..] == ".pdf"
  }

  // ---------------------------------------------------------------------------
  // The invariant the handlers keep
  // ---------------------------------------------------------------------------

  /** `selected_pdf_id` reads "0" (track the newest) or is the decimal id of a stored row. */
  predicate SelectionLive(db: Db) {
    var sel := GetSetting(db, SelectedPdfKey, "0");
    sel == "0" || (ReadableDecimal(sel) && DigitsValue(sel) in db.pdfs)
  }

  /** What every state reachable through the handlers satisfies:
      ids start at 1 and stay within the AUTOINCREMENT counter, which stays within SQLite's
      rowid range; stored names are pairwise
      distinct, have the generated shape and each has its file in the upload folder; the
      selection is "0" or live; `cycle_interval` is a decimal number `int()` can read. */
  predicate Valid(st: State) {
    && (forall k :: k in st.db.pdfs ==> 1 <= k <= st.db.sequence)
    && st.db.sequence <= MaxRowId
    && DistinctFilenames(st.db.pdfs)
    && (forall k :: k in st.db.pdfs ==> st.db.pdfs[k].filename in st.files && IsStoredName(st.db.pdfs[k].filename))
    && SelectionLive(st.db)
    && ReadableDecimal(GetSetting(st.db, CycleIntervalKey, "10"))
  }

  /** In a valid state `int(selected_pdf_id)` does not raise: it reads 0 for "0" and the
      live id otherwise, which SQLite can bind. */
  lemma SelectionParses(st: State)
    requires Valid(st)
    ensures var sel := GetSetting(st.db, SelectedPdfKey, "0");
      && PyInt(sel).Some? && IsSqlInteger(PyInt(sel).value)
      && (sel == "0" ==> PyInt(sel).value == 0)
      && (sel != "0" ==> PyInt(sel).value >= 0 && PyInt(sel).value as nat in st.db.pdfs)
  {
    var sel := GetSetting(st.db, SelectedPdfKey, "0");
    if sel == "0" {
      PyIntOfZero();
    } else {
      assert PyInt(sel) == Some(DigitsValue(sel) as int);
    }
  }

  /** In a valid state `int(cycle_interval)` does not raise. */
  lemma IntervalParses(st: State)
    requires Valid(st)
    ensures PyInt(GetSetting(st.db, CycleIntervalKey, "10")).Some?
  {
    var cycle := GetSetting(st.db, CycleIntervalKey, "10");
    assert PyInt(cycle) == Some(DigitsValue(cycle) as int);
  }

  // ---------------------------------------------------------------------------
  // Start-up
  // ---------------------------------------------------------------------------

  /** Importing app.py: the upload folder exists (whatever it holds) and `init_db` runs. */
  function Startup(st: State): (r: State)
    ensures r.files == st.files && r.db.pdfs == st.db.pdfs && r.db.sequence == st.db.sequence
    ensures forall k :: k in st.db.settings ==> k in r.db.settings && r.db.settings[k] == st.db.settings[k]
  {
    State(InitDb(st.db), st.files)
  }

  /** A first start on an empty database gives a valid state, and so does every restart of
      a valid one. */
  lemma StartupValid(st: State)
    requires Valid(st) || st.db == EmptyDb
    ensures Valid(Startup(st))
  {
    var db := InitDb(st.db);
    if st.db != EmptyDb {
      assert GetSetting(db, SelectedPdfKey, "0") == GetSetting(st.db, SelectedPdfKey, "0");
      assert GetSetting(db, CycleIntervalKey, "10") == GetSetting(st.db, CycleIntervalKey, "10");
    }
  }

  // ---------------------------------------------------------------------------
  // GET /api/current-pdf
  // ---------------------------------------------------------------------------

  datatype Display = Display(filename: string, originalName: string, cycleInterval: int, backgroundColor: string, progressIndicator: string)

  /** The JSON document with its presentation settings, the 404 "no PDF available", or an
      exception from `int()`. */
  datatype CurrentPdfResponse = Showing(display: Display) | NoPdfAvailable | CurrentPdfFailed

  /** `selected_pdf_id` is "0", which is never passed to `int()`, or `int()` reads it as an
      id that `get_pdf` can bind. */
  predicate SelectionReadable(db: Db) {
    var sel := GetSetting(db, SelectedPdfKey, "0");
    sel == "0" || (PyInt(sel).Some? && IsSqlInteger(PyInt(sel).value))
  }

  /** The row the selection resolves to: the newest row for "0", otherwise the row whose id
      is the selection read as an integer. A dangling id resolves to nothing; there is no
      fallback to the newest row. */
  function SelectedRow(db: Db): (r: Option<PdfRow>)
    requires SelectionReadable(db)
    ensures var sel := GetSetting(db, SelectedPdfKey, "0");
      && (sel == "0" ==> (r.None? <==> db.pdfs == map[]))
      && (sel == "0" && r.Some? ==> forall k :: k in db.pdfs ==> db.pdfs[k].uploadDate <= r.value.file.uploadDate)
      && (sel != "0" ==> (r.Some? <==> PyInt(sel).value >= 0 && PyInt(sel).value as nat in db.pdfs))
      && (sel != "0" && r.Some? ==> r.value.id == PyInt(sel).value)
    ensures r.Some? ==> r.value.id in db.pdfs && db.pdfs[r.value.id] == r.value.file
  {
    var sel := GetSetting(db, SelectedPdfKey, "0");
    if sel == "0" then GetNewestPdf(db) else GetPdf(db, PyInt(sel).value).value
  }

  /** `current_pdf`: resolves the selection and, when it finds a row, returns its stored and
      display names with the three presentation settings (defaults 10, "#ffffff",
      "progress"). It fails when `int()` raises on a setting or the selected id is too large
      to bind. It returns a response and no state, so it never changes anything. */
  function CurrentPdf(st: State): (r: CurrentPdfResponse)
    ensures r.CurrentPdfFailed? <==>
      !SelectionReadable(st.db) || (SelectedRow(st.db).Some? && PyInt(GetSetting(st.db, CycleIntervalKey, "10")).None?)
    ensures r.NoPdfAvailable? <==> SelectionReadable(st.db) && SelectedRow(st.db).None?
    ensures r.Showing? ==>
      && SelectedRow(st.db).Some?
      && r.display.filename == SelectedRow(st.db).value.file.filename
      && r.display.originalName == SelectedRow(st.db).value.file.originalName
      && Some(r.display.cycleInterval) == PyInt(GetSetting(st.db, CycleIntervalKey, "10"))
      && r.display.backgroundColor == GetSetting(st.db, BackgroundColorKey, "#ffffff")
      && r.display.progressIndicator == GetSetting(st.db, ProgressIndicatorKey, "progress")
  {
    if !SelectionReadable(st.db) then CurrentPdfFailed
    else match SelectedRow(st.db)
      case None => NoPdfAvailable
      case Some(row) =>
        match PyInt(GetSetting(st.db, CycleIntervalKey, "10"))
        case None => CurrentPdfFailed
        case Some(interval) =>
          Showing(Display(row.file.filename, row.file.originalName, interval,
                          GetSetting(st.db, BackgroundColorKey, "#ffffff"),
                          GetSetting(st.db, ProgressIndicatorKey, "progress")))
  }

  /** With no presentation settings stored, the display uses 10, "#ffffff" and "progress". */
  lemma CurrentPdfDefaults(st: State)
    requires CycleIntervalKey !in st.db.settings && BackgroundColorKey !in st.db.settings
    requires ProgressIndicatorKey !in st.db.settings
    requires SelectionReadable(st.db) && SelectedRow(st.db).Some?
    ensures CurrentPdf(st).Showing?
    ensures CurrentPdf(st).display.cycleInterval == 10
    ensures CurrentPdf(st).display.backgroundColor == "#ffffff"
    ensures CurrentPdf(st).display.progressIndicator == "progress"
  {
    assert GetSetting(st.db, CycleIntervalKey, "10") == "10";
    PyIntOfTen();
  }

  /** In every valid state the display has a document exactly when the table is not empty,
      and it never fails. */
  lemma DisplayAvailable(st: State)
    requires Valid(st)
    ensures CurrentPdf(st).Showing? <==> st.db.pdfs != map[]
    ensures !CurrentPdf(st).CurrentPdfFailed?
  {
    SelectionParses(st);
    IntervalParses(st);
  }

  // ---------------------------------------------------------------------------
  // POST /admin/upload
  // ---------------------------------------------------------------------------

  /** The three checks that turn an upload away before anything is written. */
  predicate UploadRejected(file: Option<Upload>) {
    file.None? || file.value.filename == "" || !HasPdfSuffix(file.value.filename)
  }

  /** `upload_pdf`: rejects a missing file, an empty filename or a name not ending in ".pdf"
      (any case) without touching anything. Otherwise it saves the file under the generated
      name `token + ".pdf"` first and then inserts the row; if the insert raises, the row
      is rolled back but the saved file stays. */
  function UploadPdf(st: State, file: Option<Upload>, secureFilename: string -> string, token: string, now: int): (r: Step)
    ensures UploadRejected(file) ==> r.state == st
    ensures file.None? || file.value.filename == "" ==> r.response == Redirect([Flash(ErrorFlash, NoFileSelected)])
    ensures file.Some? && file.value.filename != "" && !HasPdfSuffix(file.value.filename) ==>
      r.response == Redirect([Flash(ErrorFlash, OnlyPdfAllowed)])
    ensures !UploadRejected(file) ==> r.state.files == st.files + {StoredName(token)}
    ensures !UploadRejected(file) ==>
      (r.response.ServerError? <==>
         !IsSqlInteger(file.value.size) || StoredName(token) in Filenames(st.db.pdfs) || NextId(st.db) > MaxRowId)
    ensures !UploadRejected(file) && r.response.ServerError? ==> r.state.db == st.db
    ensures !UploadRejected(file) && !r.response.ServerError? ==>
      && StoredName(token) !in Filenames(st.db.pdfs)
      && r.state.db.pdfs == st.db.pdfs[NextId(st.db) := PdfFile(StoredName(token), secureFilename(file.value.filename), now, file.value.size)]
      && r.state.db.settings == st.db.settings
      && r.response == Redirect([Flash(SuccessFlash, Uploaded(secureFilename(file.value.filename)))])
  {
    if file.None? || file.value.filename == "" then
      Step(Redirect([Flash(ErrorFlash, NoFileSelected)]), st)
    else if !HasPdfSuffix(file.value.filename) then
      Step(Redirect([Flash(ErrorFlash, OnlyPdfAllowed)]), st)
    else
      var originalName := secureFilename(file.value.filename);
      var stored := StoredName(token);
      var saved := st.files + {stored};
      match AddPdf(st.db, stored, originalName, file.value.size, now)
      case RolledBack(_) => Step(ServerError, State(st.db, saved))
      case Committed(_, db) => Step(Redirect([Flash(SuccessFlash, Uploaded(originalName))]), State(db, saved))
  }

  /** A successful upload adds exactly one row, with a fresh id above every id handed out
      before, and the state stays valid whether the insert succeeds or not. */
  lemma UploadPreservesValid(st: State, file: Option<Upload>, secureFilename: string -> string, token: string, now: int)
    requires Valid(st)
    ensures Valid(UploadPdf(st, file, secureFilename, token, now).state)
    ensures var r := UploadPdf(st, file, secureFilename, token, now);
      file.Some? && r.response == Redirect([Flash(SuccessFlash, Uploaded(secureFilename(file.value.filename)))]) ==>
        && |r.state.db.pdfs| == |st.db.pdfs| + 1
        && r.state.db.sequence == st.db.sequence + 1
  {
    var r := UploadPdf(st, file, secureFilename, token, now);
    if !UploadRejected(file) && !r.response.ServerError? {
      var stored := StoredName(token);
      var originalName := secureFilename(file.value.filename);
      var add := AddPdf(st.db, stored, originalName, file.value.size, now);
      assert add.Committed? && r.state == State(add.db, st.files + {stored});
      AddPdfGrowsByOne(st.db, stored, originalName, file.value.size, now);
      assert NextId(st.db) == st.db.sequence + 1 by {
        var top := MaxId(st.db.pdfs.Keys);
        if st.db.pdfs != map[] { assert top in st.db.pdfs; }
      }
      ValidAfterInsert(st, r.state, add.value, add.db.pdfs[add.value]);
    }
  }

  /** Inserting a row with a fresh id above the counter, within SQLite's range, and a stored
      name of the generated shape whose file is saved keeps a valid state valid. */
  lemma ValidAfterInsert(st: State, st': State, id: nat, file: PdfFile)
    requires Valid(st)
    requires st.db.sequence < id <= MaxRowId
    requires st'.db == Db(st.db.pdfs[id := file], st.db.settings, id)
    requires st'.files == st.files + {file.filename}
    requires IsStoredName(file.filename) && DistinctFilenames(st'.db.pdfs)
    ensures Valid(st')
  {
    assert GetSetting(st'.db, SelectedPdfKey, "0") == GetSetting(st.db, SelectedPdfKey, "0");
    assert GetSetting(st'.db, CycleIntervalKey, "10") == GetSetting(st.db, CycleIntervalKey, "10");
  }

  /** While the display tracks the newest document, an upload dated after every stored one is
      what the display shows next. */
  lemma UploadThenDisplay(st: State, file: Option<Upload>, secureFilename: string -> string, token: string, now: int)
    requires Valid(st) && GetSetting(st.db, SelectedPdfKey, "0") == "0"
    requires forall k :: k in st.db.pdfs ==> st.db.pdfs[k].uploadDate < now
    requires UploadPdf(st, file, secureFilename, token, now).response.Redirect?
    requires !UploadRejected(file)
    ensures var s := UploadPdf(st, file, secureFilename, token, now).state;
      && CurrentPdf(s).Showing?
      && CurrentPdf(s).display.filename == StoredName(token)
      && CurrentPdf(s).display.originalName == secureFilename(file.value.filename)
  {
    var s := UploadPdf(st, file, secureFilename, token, now).state;
    UploadPreservesValid(st, file, secureFilename, token, now);
    assert GetSetting(s.db, SelectedPdfKey, "0") == "0";
    var id := NextId(st.db);
    assert id in s.db.pdfs;
    DisplayAvailable(s);
    assert SelectedRow(s.db).value.id == id;
  }

  // ---------------------------------------------------------------------------
  // POST /admin/rename/<int:pdf_id>
  // ---------------------------------------------------------------------------

  /** `rename_pdf`, given the stripped `new_name` field: an empty name is refused and nothing
      changes. Otherwise ".pdf" is appended unless the name already ends in it (any case),
      only that row's display name changes, and the handler reports success even when no row
      has the id. An id too large for SQLite makes the update raise, and nothing changes. */
  function RenameTo(st: State, pdfId: nat, newName: string): (r: Step)
    ensures r.state.db.pdfs.Keys == st.db.pdfs.Keys
    ensures newName == "" ==> r == Step(Redirect([Flash(ErrorFlash, EmptyName)]), st)
    ensures newName != "" && !IsSqlInteger(pdfId) ==> r == Step(ServerError, st)
    ensures newName != "" && IsSqlInteger(pdfId) ==> r.response == Redirect([Flash(SuccessFlash, Renamed)])
    ensures newName != "" && IsSqlInteger(pdfId) && pdfId in st.db.pdfs ==>
      r.state.db.pdfs[pdfId] == st.db.pdfs[pdfId].(originalName := WithPdfSuffix(newName))
    ensures pdfId !in st.db.pdfs ==> r.state == st
    ensures r.state.files == st.files
    ensures r.state.db.settings == st.db.settings && r.state.db.sequence == st.db.sequence
    ensures forall k :: k in st.db.pdfs && k != pdfId ==> r.state.db.pdfs[k] == st.db.pdfs[k]
  {
    if newName == "" then
      Step(Redirect([Flash(ErrorFlash, EmptyName)]), st)
    else
      match UpdatePdfName(st.db, pdfId, WithPdfSuffix(newName))
      case RolledBack(_) => Step(ServerError, st)
      case Committed(_, db) => Step(Redirect([Flash(SuccessFlash, Renamed)]), State(db, st.files))
  }

  /** `rename_pdf`: the new name is the form field with surrounding whitespace removed, so a
      missing or all-whitespace field is refused and changes nothing; any other field renames
      the row to its stripped text, with ".pdf" appended unless already there. */
  function RenamePdf(st: State, pdfId: nat, form: map<string, string>): (r: Step)
    ensures r.state.files == st.files && r.state.db.pdfs.Keys == st.db.pdfs.Keys
    ensures var field := FormGet(form, "new_name", "");
      && (AllSpace(field) <==> r.response == Redirect([Flash(ErrorFlash, EmptyName)]))
      && (AllSpace(field) ==> r.state == st)
      && (!AllSpace(field) && IsSqlInteger(pdfId) ==> r.response == Redirect([Flash(SuccessFlash, Renamed)]))
      && (!AllSpace(field) && IsSqlInteger(pdfId) && pdfId in st.db.pdfs ==>
            r.state.db.pdfs[pdfId] == st.db.pdfs[pdfId].(originalName := WithPdfSuffix(Strip(field))))
    ensures r.state.db.settings == st.db.settings && r.state.db.sequence == st.db.sequence
    ensures forall k :: k in st.db.pdfs && k != pdfId ==> r.state.db.pdfs[k] == st.db.pdfs[k]
  {
    var field := FormGet(form, "new_name", "");
    StripBlank(field);
    RenameTo(st, pdfId, Strip(field))
  }

  /** Validity looks only at ids, stored names, files and settings, not at display names. */
  lemma ValidIgnoresDisplayNames(st: State, st': State)
    requires Valid(st)
    requires st'.files == st.files && st'.db.settings == st.db.settings && st'.db.sequence == st.db.sequence
    requires st'.db.pdfs.Keys == st.db.pdfs.Keys
    requires forall k :: k in st.db.pdfs ==> st'.db.pdfs[k].filename == st.db.pdfs[k].filename
    ensures Valid(st')
  {
    assert SelectionLive(st'.db);
  }

  lemma RenamePreservesValid(st: State, pdfId: nat, newName: string)
    requires Valid(st)
    ensures Valid(RenameTo(st, pdfId, newName).state)
  {
    RenameKeepsStoredNames(st, pdfId, newName);
    ValidIgnoresDisplayNames(st, RenameTo(st, pdfId, newName).state);
  }

  /** A rename changes no stored name. */
  lemma RenameKeepsStoredNames(st: State, pdfId: nat, newName: string)
    ensures var st' := RenameTo(st, pdfId, newName).state;
      forall k :: k in st.db.pdfs ==> st'.db.pdfs[k].filename == st.db.pdfs[k].filename
  {
  }

  // ---------------------------------------------------------------------------
  // POST /admin/delete/<int:pdf_id>
  // ---------------------------------------------------------------------------

  /** `delete_pdf_file`, given `int(selected_pdf_id)` as `sel` (`None` for a `ValueError`):
      deletes the row and then its file. A non-empty stored name counts as found: the file is
      removed and, if the selection equals the id, the selection goes back to "0". The row is
      deleted in its own transaction before the selection is read, so a failing `int()`
      leaves the deletion in place. An id too large for SQLite makes the delete raise, and
      nothing changes. */
  function DeleteWithSelection(st: State, pdfId: nat, sel: Option<int>): (r: Step)
    ensures !IsSqlInteger(pdfId) ==> r == Step(ServerError, st)
    ensures IsSqlInteger(pdfId) && pdfId !in st.db.pdfs ==> r == Step(Redirect([Flash(ErrorFlash, FileNotFound)]), st)
    ensures IsSqlInteger(pdfId) && pdfId in st.db.pdfs ==>
      && r.state.db.pdfs.Keys == st.db.pdfs.Keys - {pdfId}
      && r.state.db.sequence == st.db.sequence
    ensures forall k :: k in r.state.db.pdfs ==> k in st.db.pdfs && r.state.db.pdfs[k] == st.db.pdfs[k]
    ensures IsSqlInteger(pdfId) && pdfId in st.db.pdfs && st.db.pdfs[pdfId].filename != "" ==>
      && r.state.files == st.files - {st.db.pdfs[pdfId].filename}
      && (sel.None? ==> r.response == ServerError && r.state.db.settings == st.db.settings)
      && (sel.Some? ==> r.response == Redirect([Flash(SuccessFlash, Deleted)]))
      && (sel.Some? && sel.value == pdfId ==> r.state.db.settings == st.db.settings[SelectedPdfKey := "0"])
      && (sel.Some? && sel.value != pdfId ==> r.state.db.settings == st.db.settings)
    ensures IsSqlInteger(pdfId) && pdfId in st.db.pdfs && st.db.pdfs[pdfId].filename == "" ==>
      r.response == Redirect([Flash(ErrorFlash, FileNotFound)]) && r.state.files == st.files
      && r.state.db.settings == st.db.settings
  {
    match DeletePdf(st.db, pdfId)
    case RolledBack(_) => Step(ServerError, st)
    case Committed(filename, db) =>
      if filename.Some? && filename.value != "" then
        var files := st.files - {filename.value};
        match sel
        case None => Step(ServerError, State(db, files))
        case Some(id) =>
          var db' := if id == pdfId then SetSetting(db, SelectedPdfKey, "0") else db;
          Step(Redirect([Flash(SuccessFlash, Deleted)]), State(db', files))
      else
        Step(Redirect([Flash(ErrorFlash, FileNotFound)]), State(db, st.files))
  }

  /** `delete_pdf_file`: the selection it reads is the one stored before the call, since
      deleting a row leaves the settings table alone. */
  function DeletePdfFile(st: State, pdfId: nat): (r: Step)
    ensures !IsSqlInteger(pdfId) ==> r == Step(ServerError, st)
    ensures IsSqlInteger(pdfId) && pdfId !in st.db.pdfs ==> r == Step(Redirect([Flash(ErrorFlash, FileNotFound)]), st)
    ensures IsSqlInteger(pdfId) ==> pdfId !in r.state.db.pdfs
    ensures r.state.db.pdfs.Keys <= st.db.pdfs.Keys
  {
    DeleteWithSelection(st, pdfId, PyInt(GetSetting(st.db, SelectedPdfKey, "0")))
  }

  /** Removing one row together with its file keeps the row part of the invariant; the
      settings part has to be shown for the new state. */
  lemma ValidAfterRemovingRow(st: State, st': State, pdfId: nat)
    requires Valid(st) && pdfId in st.db.pdfs
    requires st'.db.pdfs.Keys == st.db.pdfs.Keys - {pdfId}
    requires forall k :: k in st'.db.pdfs ==> st'.db.pdfs[k] == st.db.pdfs[k]
    requires st'.db.sequence == st.db.sequence
    requires st'.files == st.files - {st.db.pdfs[pdfId].filename}
    requires SelectionLive(st'.db) && ReadableDecimal(GetSetting(st'.db, CycleIntervalKey, "10"))
    ensures Valid(st')
  {
    var name := st.db.pdfs[pdfId].filename;
    forall k | k in st'.db.pdfs ensures st'.db.pdfs[k].filename in st'.files {
      assert st.db.pdfs[k].filename != name;
    }
  }

  /** A well-formed selection reads as its digits' value, and deleting keeps the state valid. */
  lemma DeleteWithSelectionPreservesValid(st: State, pdfId: nat, sel: Option<int>)
    requires Valid(st)
    requires sel == Some(DigitsValue(GetSetting(st.db, SelectedPdfKey, "0")) as int)
    ensures Valid(DeleteWithSelection(st, pdfId, sel).state)
    ensures pdfId in st.db.pdfs ==> DeleteWithSelection(st, pdfId, sel).response == Redirect([Flash(SuccessFlash, Deleted)])
  {
    var r := DeleteWithSelection(st, pdfId, sel);
    if pdfId in st.db.pdfs {
      assert IsSqlInteger(pdfId);
      assert st.db.pdfs[pdfId].filename != "";
      var db := r.state.db;
      if sel.value == pdfId {
        assert GetSetting(db, SelectedPdfKey, "0") == "0";
      } else {
        assert db.settings == st.db.settings;
        assert GetSetting(db, SelectedPdfKey, "0") == GetSetting(st.db, SelectedPdfKey, "0");
      }
      assert GetSetting(db, CycleIntervalKey, "10") == GetSetting(st.db, CycleIntervalKey, "10");
      ValidAfterRemovingRow(st, r.state, pdfId);
    }
  }

  /** Deleting keeps the state valid, and on a valid state an existing row is always deleted
      with the success message (the stored selection always parses). */
  lemma DeletePreservesValid(st: State, pdfId: nat)
    requires Valid(st)
    ensures Valid(DeletePdfFile(st, pdfId).state)
    ensures pdfId in st.db.pdfs ==> DeletePdfFile(st, pdfId).response == Redirect([Flash(SuccessFlash, Deleted)])
  {
    var sel := GetSetting(st.db, SelectedPdfKey, "0");
    assert PyInt(sel) == Some(DigitsValue(sel) as int);
    DeleteWithSelectionPreservesValid(st, pdfId, PyInt(sel));
  }

  /** Deleting the pinned document sends the display back to tracking the newest one: it
      shows a document of maximal upload date when any is left, and reports none otherwise. */
  lemma DeletePinnedThenNewest(st: State, pdfId: nat)
    requires Valid(st) && pdfId in st.db.pdfs
    requires GetSetting(st.db, SelectedPdfKey, "0") == NatToString(pdfId)
    ensures var s := DeletePdfFile(st, pdfId).state;
      && GetSetting(s.db, SelectedPdfKey, "0") == "0"
      && pdfId !in s.db.pdfs
      && (CurrentPdf(s).Showing? <==> s.db.pdfs != map[])
      && (CurrentPdf(s).Showing? ==>
            exists k :: k in s.db.pdfs && s.db.pdfs[k].filename == CurrentPdf(s).display.filename
              && forall j :: j in s.db.pdfs ==> s.db.pdfs[j].uploadDate <= s.db.pdfs[k].uploadDate)
  {
    DeletePreservesValid(st, pdfId);
    PyIntOfNatToString(pdfId);
    var s := DeletePdfFile(st, pdfId).state;
    assert GetSetting(s.db, SelectedPdfKey, "0") == "0";
    DisplayAvailable(s);
    if CurrentPdf(s).Showing? {
      var row := SelectedRow(s.db).value;
      assert row.id in s.db.pdfs && s.db.pdfs[row.id].filename == CurrentPdf(s).display.filename;
    }
  }

  // ---------------------------------------------------------------------------
  // POST /admin/select/<int:pdf_id> and /admin/select-newest
  // ---------------------------------------------------------------------------

  /** `select_pdf`: pins `selected_pdf_id` to `str(pdf_id)` only when that row exists;
      otherwise reports "not found" and changes nothing. An id too large for SQLite makes
      `get_pdf` raise. */
  function SelectPdf(st: State, pdfId: nat): (r: Step)
    ensures !IsSqlInteger(pdfId) ==> r == Step(ServerError, st)
    ensures IsSqlInteger(pdfId) && pdfId !in st.db.pdfs ==> r == Step(Redirect([Flash(ErrorFlash, FileNotFound)]), st)
    ensures IsSqlInteger(pdfId) && pdfId in st.db.pdfs ==>
      && r.response == Redirect([Flash(SuccessFlash, NowShowing(st.db.pdfs[pdfId].originalName))])
      && r.state.db.settings == st.db.settings[SelectedPdfKey := NatToString(pdfId)]
    ensures r.state.files == st.files && r.state.db.pdfs == st.db.pdfs && r.state.db.sequence == st.db.sequence
  {
    match GetPdf(st.db, pdfId)
    case RolledBack(_) => Step(ServerError, st)
    case Committed(None, _) => Step(Redirect([Flash(ErrorFlash, FileNotFound)]), st)
    case Committed(Some(row), _) =>
      Step(Redirect([Flash(SuccessFlash, NowShowing(row.file.originalName))]),
           State(SetSetting(st.db, SelectedPdfKey, NatToString(pdfId)), st.files))
  }

  /** An id SQLite can bind has at most 19 decimal digits, so `str()` writes it and `int()`
      reads it back. */
  lemma RowIdPrintable(id: nat)
    requires IsSqlInteger(id)
    ensures |NatToString(id)| <= 19
    ensures Printable(id) && PyInt(NatToString(id)) == Some(id)
  {
    assert Pow10(10) == 10_000_000_000;
    assert Pow10(19) == 10_000_000_000_000_000_000;
    NatToStringLength(id, 19);
    PyIntOfNatToString(id);
  }

  /** Once `str(pdf_id)` of a non-zero id is stored as the selection, the selection resolves
      to that row. (Id 0 would read as "track the newest"; AUTOINCREMENT never hands it out.) */
  lemma PinnedRowSelected(db: Db, pdfId: nat)
    requires pdfId != 0 && IsSqlInteger(pdfId) && pdfId in db.pdfs
    requires GetSetting(db, SelectedPdfKey, "0") == NatToString(pdfId)
    ensures SelectionReadable(db)
    ensures SelectedRow(db) == Some(PdfRow(pdfId, db.pdfs[pdfId]))
  {
    var sel := GetSetting(db, SelectedPdfKey, "0");
    NatToStringZero(pdfId);
    assert sel != "0";
    RowIdPrintable(pdfId);
    assert PyInt(sel) == Some(pdfId as int);
    var q := GetPdf(db, pdfId);
    assert q.Committed? && q.value == Some(PdfRow(pdfId, db.pdfs[pdfId]));
  }

  /** After selecting an existing row, the display shows exactly that row. */
  lemma SelectThenDisplay(st: State, pdfId: nat)
    requires Valid(st) && pdfId in st.db.pdfs
    ensures var shown := CurrentPdf(SelectPdf(st, pdfId).state);
      shown.Showing? && shown.display.filename == st.db.pdfs[pdfId].filename
      && shown.display.originalName == st.db.pdfs[pdfId].originalName
  {
    var s := SelectPdf(st, pdfId).state;
    assert IsSqlInteger(pdfId);
    SelectPreservesValid(st, pdfId);
    assert GetSetting(s.db, SelectedPdfKey, "0") == NatToString(pdfId);
    PinnedRowSelected(s.db, pdfId);
    IntervalParses(s);
  }

  /** `select_newest`: sets `selected_pdf_id` to "0" unconditionally and nothing else. */
  function SelectNewest(st: State): (r: Step)
    ensures r.response == Redirect([Flash(SuccessFlash, ShowingNewest)])
    ensures r.state.db.settings == st.db.settings[SelectedPdfKey := "0"]
    ensures r.state.files == st.files && r.state.db.pdfs == st.db.pdfs && r.state.db.sequence == st.db.sequence
  {
    Step(Redirect([Flash(SuccessFlash, ShowingNewest)]), State(SetSetting(st.db, SelectedPdfKey, "0"), st.files))
  }

  lemma SelectPreservesValid(st: State, pdfId: nat)
    requires Valid(st)
    ensures Valid(SelectPdf(st, pdfId).state)
  {
    var s := SelectPdf(st, pdfId).state;
    if pdfId in st.db.pdfs {
      assert IsSqlInteger(pdfId);
      DigitsOfNatToString(pdfId);
      RowIdPrintable(pdfId);
      assert GetSetting(s.db, SelectedPdfKey, "0") == NatToString(pdfId);
    }
    assert GetSetting(s.db, CycleIntervalKey, "10") == GetSetting(st.db, CycleIntervalKey, "10");
  }

  lemma SelectNewestPreservesValid(st: State)
    requires Valid(st)
    ensures Valid(SelectNewest(st).state)
  {
    var n := SelectNewest(st).state;
    assert GetSetting(n.db, SelectedPdfKey, "0") == "0";
    assert GetSetting(n.db, CycleIntervalKey, "10") == GetSetting(st.db, CycleIntervalKey, "10");
  }

  // ---------------------------------------------------------------------------
  // POST /admin/settings
  // ---------------------------------------------------------------------------

  const Indicators: set<string> := {"countdown", "progress", "none"}

  /** The three fields of the settings form as the handler reads them. */
  datatype SettingsForm = SettingsForm(interval: Option<int>, color: string, indicator: string)

  /** `request.form.get('cycle_interval', type=int)` and the two text fields without their
      surrounding whitespace (missing ones read as ""). */
  function ReadSettingsForm(form: map<string, string>): (f: SettingsForm)
    ensures f.interval == FormInt(form, "cycle_interval")
    ensures IsStripOf(FormGet(form, "background_color", ""), f.color)
    ensures IsStripOf(FormGet(form, "progress_indicator", ""), f.indicator)
    ensures "cycle_interval" !in form ==> f.interval.None?
    ensures "background_color" !in form ==> f.color == ""
    ensures "progress_indicator" !in form ==> f.indicator == ""
  {
    SettingsForm(FormInt(form, "cycle_interval"),
                 Strip(FormGet(form, "background_color", "")),
                 Strip(FormGet(form, "progress_indicator", "")))
  }

  /** `cycle_interval and cycle_interval > 0`, where None and 0 are falsy: the interval is
      accepted exactly when it is a positive integer. */
  predicate IntervalOk(f: SettingsForm)
    ensures IntervalOk(f) <==> f.interval.Some? && f.interval.value >= 1
  {
    f.interval.Some? && f.interval.value != 0 && f.interval.value > 0
  }

  /** `background_color and len(background_color) == 7 and background_color.startswith('#')`:
      exactly the 7-character strings starting with '#'. The other six characters are not
      checked to be hex digits. */
  predicate ColorOk(f: SettingsForm)
    ensures ColorOk(f) <==> |f.color| == 7 && f.color[0] == '#'
  {
    f.color != "" && |f.color| == 7 && StartsWith(f.color, "#")
  }

  /** `progress_indicator in ['countdown', 'progress', 'none']`. */
  predicate IndicatorOk(f: SettingsForm)
    ensures IndicatorOk(f) <==> f.indicator in Indicators
  {
    f.indicator in ["countdown", "progress", "none"]
  }

  /** A valid interval whose `str()` raises: more than `MaxStrDigits` digits. */
  predicate IntervalRaises(f: SettingsForm) {
    IntervalOk(f) && !Printable(f.interval.value)
  }

  /** The text `set_setting` stores for a valid interval: `str(cycle_interval)`, short enough
      for `int()` to read. */
  function IntervalText(f: SettingsForm): (text: string)
    requires IntervalOk(f) && !IntervalRaises(f)
    ensures ReadableDecimal(text)
  {
    NatToString(f.interval.value)
  }

  /** The stored interval reads back, through `int()`, as the submitted value. */
  lemma IntervalTextReadsBack(f: SettingsForm)
    requires IntervalOk(f) && !IntervalRaises(f)
    ensures PyInt(IntervalText(f)) == f.interval
  {
    PyIntOfNatToString(f.interval.value);
  }

  /** One field of the settings form: a valid field is written under `key`, an invalid one
      leaves the database alone. No other key changes. */
  function StoreIfValid(db: Db, valid: bool, key: string, value: string): (r: Db)
    ensures r.pdfs == db.pdfs && r.sequence == db.sequence
    ensures valid ==> key in r.settings && r.settings[key] == value
    ensures !valid ==> r == db
    ensures forall k :: k != key ==> (k in r.settings <==> k in db.settings)
    ensures forall k :: k != key && k in r.settings ==> r.settings[k] == db.settings[k]
  {
    if valid then SetSetting(db, key, value) else db
  }

  /** The error messages of `update_settings`: one per invalid field, in field order. */
  function SettingsErrors(f: SettingsForm): (errors: seq<Flash>)
    ensures errors == [] <==> IntervalOk(f) && ColorOk(f) && IndicatorOk(f)
    ensures Flash(ErrorFlash, InvalidInterval) in errors <==> !IntervalOk(f)
    ensures Flash(ErrorFlash, InvalidColor) in errors <==> !ColorOk(f)
    ensures Flash(ErrorFlash, InvalidIndicator) in errors <==> !IndicatorOk(f)
    ensures forall i :: 0 <= i < |errors| ==> errors[i].category == ErrorFlash
  {
    var e1: seq<Flash> := if IntervalOk(f) then [] else [Flash(ErrorFlash, InvalidInterval)];
    var e2: seq<Flash> := if ColorOk(f) then [] else [Flash(ErrorFlash, InvalidColor)];
    var e3: seq<Flash> := if IndicatorOk(f) then [] else [Flash(ErrorFlash, InvalidIndicator)];
    assert forall x :: x in e1 + e2 + e3 <==> x in e1 || x in e2 || x in e3;
    e1 + e2 + e3
  }

  /** The checks of `update_settings`: each of the three fields is checked and, when valid,
      stored, whatever happens to the others; one error message per invalid field, in field
      order, and the success message only when all three were valid. The fields are
      independent, so storing them before collecting the messages changes nothing. A valid
      interval too long for `str()` raises in the first `set_setting`, before anything is
      written. */
  function ApplySettings(st: State, f: SettingsForm): (r: Step)
    ensures r.state.files == st.files && r.state.db.pdfs == st.db.pdfs && r.state.db.sequence == st.db.sequence
    ensures r.response.Redirect? <==> !IntervalRaises(f)
    ensures IntervalRaises(f) ==> r == Step(ServerError, st)
    ensures r.response.Redirect? ==>
      (r.response.flashes == [Flash(SuccessFlash, SettingsSaved)] <==> IntervalOk(f) && ColorOk(f) && IndicatorOk(f))
    ensures r.response.Redirect? ==> (Flash(ErrorFlash, InvalidInterval) in r.response.flashes <==> !IntervalOk(f))
    ensures r.response.Redirect? ==> (Flash(ErrorFlash, InvalidColor) in r.response.flashes <==> !ColorOk(f))
    ensures r.response.Redirect? ==> (Flash(ErrorFlash, InvalidIndicator) in r.response.flashes <==> !IndicatorOk(f))
  {
    if IntervalRaises(f) then Step(ServerError, st) else
    var db1 := StoreIfValid(st.db, IntervalOk(f), CycleIntervalKey, if IntervalOk(f) then IntervalText(f) else "");
    var db2 := StoreIfValid(db1, ColorOk(f), BackgroundColorKey, f.color);
    var db3 := StoreIfValid(db2, IndicatorOk(f), ProgressIndicatorKey, f.indicator);
    var errors := SettingsErrors(f);
    var flashes := if errors == [] then [Flash(SuccessFlash, SettingsSaved)] else errors;
    Step(Redirect(flashes), State(db3, st.files))
  }

  /** Each valid field is stored, even when another field fails; an invalid field keeps the
      value it had. */
  lemma ApplySettingsStores(st: State, f: SettingsForm)
    ensures var db := ApplySettings(st, f).state.db;
      && (IntervalOk(f) && !IntervalRaises(f) ==> GetSetting(db, CycleIntervalKey, "10") == IntervalText(f))
      && (!IntervalOk(f) ==> GetSetting(db, CycleIntervalKey, "10") == GetSetting(st.db, CycleIntervalKey, "10"))
      && (ColorOk(f) && !IntervalRaises(f) ==> GetSetting(db, BackgroundColorKey, "#ffffff") == f.color)
      && (!ColorOk(f) ==> GetSetting(db, BackgroundColorKey, "#ffffff") == GetSetting(st.db, BackgroundColorKey, "#ffffff"))
      && (IndicatorOk(f) && !IntervalRaises(f) ==> GetSetting(db, ProgressIndicatorKey, "progress") == f.indicator)
      && (!IndicatorOk(f) ==> GetSetting(db, ProgressIndicatorKey, "progress") == GetSetting(st.db, ProgressIndicatorKey, "progress"))
  {
  }

  /** Settings other than the three of the form are left as they were. */
  lemma ApplySettingsKeepsOthers(st: State, f: SettingsForm, k: string)
    requires k != CycleIntervalKey && k != BackgroundColorKey && k != ProgressIndicatorKey
    ensures var db := ApplySettings(st, f).state.db;
      (k in db.settings <==> k in st.db.settings) && (k in db.settings ==> db.settings[k] == st.db.settings[k])
  {
  }

  /** `update_settings`: reads the form, then checks and applies the three fields. An
      interval `int()` accepted is one `str()` can write back, so the handler always
      redirects. */
  function UpdateSettings(st: State, form: map<string, string>): (r: Step)
    ensures r.response.Redirect?
    ensures r.state.files == st.files && r.state.db.pdfs == st.db.pdfs
  {
    ApplySettings(st, ReadSettingsForm(form))
  }

  /** A `cycle_interval` with more digits than `int()` reads is refused like any other
      unreadable one: the error message is shown and the stored interval stays. */
  lemma LongIntervalRefused(st: State, form: map<string, string>)
    requires "cycle_interval" in form && IsDecimal(form["cycle_interval"])
    requires |form["cycle_interval"]| > MaxStrDigits
    ensures Flash(ErrorFlash, InvalidInterval) in UpdateSettings(st, form).response.flashes
    ensures GetSetting(UpdateSettings(st, form).state.db, CycleIntervalKey, "10") == GetSetting(st.db, CycleIntervalKey, "10")
  {
    assert FormInt(form, "cycle_interval").None?;
    UnreadableIntervalRefused(st, form);
  }

  /** A `cycle_interval` holding an information separator, such as "\x1c5", is refused: the
      error message is shown and the stored interval stays. */
  lemma SeparatorIntervalRefused(st: State, form: map<string, string>)
    requires "cycle_interval" in form && HasInfoSeparator(form["cycle_interval"])
    ensures Flash(ErrorFlash, InvalidInterval) in UpdateSettings(st, form).response.flashes
    ensures GetSetting(UpdateSettings(st, form).state.db, CycleIntervalKey, "10") == GetSetting(st.db, CycleIntervalKey, "10")
  {
    assert FormInt(form, "cycle_interval").None?;
    UnreadableIntervalRefused(st, form);
  }

  /** A `cycle_interval` that `type=int` cannot read is refused: the error message is shown
      and the stored interval stays. */
  lemma UnreadableIntervalRefused(st: State, form: map<string, string>)
    requires FormInt(form, "cycle_interval").None?
    ensures Flash(ErrorFlash, InvalidInterval) in UpdateSettings(st, form).response.flashes
    ensures GetSetting(UpdateSettings(st, form).state.db, CycleIntervalKey, "10") == GetSetting(st.db, CycleIntervalKey, "10")
  {
    var f := ReadSettingsForm(form);
    assert !IntervalOk(f);
    ApplySettingsStores(st, f);
  }

  lemma ApplySettingsPreservesValid(st: State, f: SettingsForm)
    requires Valid(st)
    ensures Valid(ApplySettings(st, f).state)
  {
    var db := ApplySettings(st, f).state.db;
    ApplySettingsStores(st, f);
    ApplySettingsKeepsOthers(st, f, SelectedPdfKey);
    assert GetSetting(db, SelectedPdfKey, "0") == GetSetting(st.db, SelectedPdfKey, "0");
    assert ReadableDecimal(GetSetting(db, CycleIntervalKey, "10"));
  }

  // ---------------------------------------------------------------------------
  // GET /admin: pagination
  // ---------------------------------------------------------------------------

  // The admin page lists `per_page = 10` rows per page.

  /** `(total + per_page - 1) // per_page`: zero pages exactly for zero rows, otherwise the
      fewest pages of ten that hold every row. */
  function TotalPages(total: nat): (pages: nat)
    ensures pages == 0 <==> total == 0
    ensures total > 0 ==> (pages - 1) * 10 < total <= pages * 10
  {
    (total + 10 - 1) / 10
  }

  /** The offset of page `page`, `(page - 1) * per_page`, can be bound by SQLite. */
  predicate PageBindable(page: int) {
    IsSqlInteger((page - 1) * 10)
  }

  /** The rows page `page` shows, `get_all_pdfs(limit=10, offset=(page - 1) * 10)`, when its
      offset can be bound. */
  function PageRows(db: Db, page: int): seq<PdfRow> {
    LimitOffset(Listing(db.pdfs), 10, (page - 1) * 10)
  }

  /** Position `i` of a listing of `n` rows falls on page `i / 10 + 1`, at place `i % 10`,
      and that page is within `total_pages`. */
  lemma PageOfPosition(i: nat, n: nat)
    requires i < n
    ensures (i / 10) * 10 + i % 10 == i
    ensures 1 <= i / 10 + 1 <= TotalPages(n)
  {
    assert (i / 10) * 10 <= i;
  }

  /** Place `place` of page `page` is row `(page - 1) * 10 + place` of the listing, and any
      page holding a row is within `total_pages`. */
  lemma PageShowsListing(db: Db, page: int, place: nat)
    requires page >= 1 && place < 10 && (page - 1) * 10 + place < |db.pdfs|
    ensures place < |PageRows(db, page)|
    ensures PageRows(db, page)[place] == Listing(db.pdfs)[(page - 1) * 10 + place]
    ensures page <= TotalPages(|db.pdfs|)
  {
    var pos := (page - 1) * 10 + place;
    PageRowAt(db, page, place, pos);
    PageWithinTotal(|db.pdfs|, page, place);
    assert PageRows(db, page)[place] == Listing(db.pdfs)[pos];
  }

  /** Place `place` of page `page` is row `pos` of the listing when `pos` is that page's
      offset plus `place`. */
  lemma PageRowAt(db: Db, page: int, place: nat, pos: nat)
    requires page >= 1 && place < 10 && pos == (page - 1) * 10 + place && pos < |db.pdfs|
    ensures place < |PageRows(db, page)|
    ensures PageRows(db, page)[place] == Listing(db.pdfs)[pos]
  {
    var all := Listing(db.pdfs);
    var start := (page - 1) * 10;
    assert PageRows(db, page) == LimitOffset(all, 10, start);
    assert |all| == |db.pdfs| && start + place == pos;
    WindowHolds(all, start, place);
  }

  /** A page holding row `(page - 1) * 10 + place` of `n` rows is within `total_pages`. */
  lemma PageWithinTotal(n: nat, page: int, place: nat)
    requires page >= 1 && place < 10 && (page - 1) * 10 + place < n
    ensures page <= TotalPages(n)
  {
  }

  /** Place `place` of the ten-row window at `start` is row `start + place`. */
  lemma WindowHolds(rows: seq<PdfRow>, start: nat, place: nat)
    requires place < 10 && start + place < |rows|
    ensures place < |LimitOffset(rows, 10, start)|
    ensures LimitOffset(rows, 10, start)[place] == rows[start + place]
  {
  }

  /** Every row of the listing is on exactly the page its position says, at the matching
      place, and that page is within `total_pages`. */
  lemma PagesCoverListing(db: Db, i: nat)
    requires i < |db.pdfs|
    ensures i % 10 < |PageRows(db, i / 10 + 1)|
    ensures PageRows(db, i / 10 + 1)[i % 10] == Listing(db.pdfs)[i]
    ensures 1 <= i / 10 + 1 <= TotalPages(|db.pdfs|)
  {
    PageOfPosition(i, |db.pdfs|);
    PageRowAt(db, i / 10 + 1, i % 10, i);
  }

  /** The window of a page past `total_pages` is empty, and the window of a page number
      below 1 is the first page's. (`PageListing` says when such a page's query raises.) */
  lemma PagesOutsideRange(db: Db, page: int)
    ensures page > TotalPages(|db.pdfs|) ==> PageRows(db, page) == []
    ensures page < 1 ==> PageRows(db, page) == PageRows(db, 1)
  {
    if page > TotalPages(|db.pdfs|) {
      assert (page - 1) * 10 >= TotalPages(|db.pdfs|) * 10;
    }
  }

  datatype AdminPage = AdminPage(
    pdfs: seq<PdfRow>, page: int, totalPages: nat, selectedId: int,
    cycleInterval: int, backgroundColor: string, progressIndicator: string)

  datatype AdminResponse = AdminView(view: AdminPage) | AdminFailed

  /** `admin`: the page number from `?page=` (1 when absent or unreadable), that page of the
      listing, the page count and the current settings. The listing raises when the page's
      offset is too large for SQLite, and `int()` on a stored setting may raise. */
  function Admin(st: State, args: map<string, string>): (r: AdminResponse)
    ensures r.AdminFailed? <==>
      || !PageBindable(FormInt(args, "page").GetOr(1))
      || PyInt(GetSetting(st.db, SelectedPdfKey, "0")).None?
      || PyInt(GetSetting(st.db, CycleIntervalKey, "10")).None?
    ensures r.AdminView? ==>
      && r.view.pdfs == PageRows(st.db, r.view.page)
      && r.view.totalPages == TotalPages(|st.db.pdfs|)
      && (FormInt(args, "page").Some? ==> r.view.page == FormInt(args, "page").value)
      && (FormInt(args, "page").None? ==> r.view.page == 1)
      && Some(r.view.selectedId) == PyInt(GetSetting(st.db, SelectedPdfKey, "0"))
  {
    var page := FormInt(args, "page").GetOr(1);
    PageListing(st.db, page);
    match GetAllPdfs(st.db, Some(10), (page - 1) * 10)
    case RolledBack(_) => AdminFailed
    case Committed(rows, _) =>
      var total := GetPdfCount(st.db);
      match PyInt(GetSetting(st.db, SelectedPdfKey, "0"))
      case None => AdminFailed
      case Some(selected) =>
        match PyInt(GetSetting(st.db, CycleIntervalKey, "10"))
        case None => AdminFailed
        case Some(interval) =>
          AdminView(AdminPage(rows, page, TotalPages(total), selected, interval,
                              GetSetting(st.db, BackgroundColorKey, "#ffffff"),
                              GetSetting(st.db, ProgressIndicatorKey, "progress")))
  }

  /** The admin page's listing query raises exactly when the page's offset cannot be bound,
      and otherwise returns that page's rows. */
  lemma PageListing(db: Db, page: int)
    ensures var q := GetAllPdfs(db, Some(10), (page - 1) * 10);
      && (q.RolledBack? <==> !PageBindable(page))
      && (q.Committed? ==> q.value == PageRows(db, page))
  {
    assert IsSqlInteger(10);
  }

  /** In a valid state the admin page fails only for a page number whose offset SQLite cannot
      bind; without `?page=` it never fails. */
  lemma AdminAvailable(st: State, args: map<string, string>)
    requires Valid(st)
    ensures Admin(st, args).AdminView? <==> PageBindable(FormInt(args, "page").GetOr(1))
    ensures "page" !in args ==> Admin(st, args).AdminView?
  {
    AdminFailsOnlyForPage(st, args);
    if "page" !in args {
      FirstPageBindable(args);
    }
  }

  /** `?page=` with more digits than `int()` reads (leading zeros included) counts as
      unreadable: the admin page shows page 1. */
  lemma AdminLongPageShowsFirst(st: State, args: map<string, string>)
    requires Valid(st)
    requires "page" in args && IsDecimal(args["page"]) && |args["page"]| > MaxStrDigits
    ensures Admin(st, args).AdminView? && Admin(st, args).view.page == 1
  {
    assert FormInt(args, "page").None?;
    AdminUnreadablePageShowsFirst(st, args);
  }

  /** `?page=` holding an information separator, such as "\x1c2", is unreadable to `int()`:
      the admin page shows page 1. */
  lemma AdminSeparatorPageShowsFirst(st: State, args: map<string, string>)
    requires Valid(st)
    requires "page" in args && HasInfoSeparator(args["page"])
    ensures Admin(st, args).AdminView? && Admin(st, args).view.page == 1
  {
    assert FormInt(args, "page").None?;
    AdminUnreadablePageShowsFirst(st, args);
  }

  /** In a valid state a `?page=` that `int()` cannot read shows page 1. */
  lemma AdminUnreadablePageShowsFirst(st: State, args: map<string, string>)
    requires Valid(st) && FormInt(args, "page").None?
    ensures Admin(st, args).AdminView? && Admin(st, args).view.page == 1
  {
    FirstPageBindable(args);
    AdminAvailable(st, args);
  }

  /** In a valid state both stored settings parse, so only the page offset can fail. */
  lemma AdminFailsOnlyForPage(st: State, args: map<string, string>)
    requires Valid(st)
    ensures Admin(st, args).AdminView? <==> PageBindable(FormInt(args, "page").GetOr(1))
  {
    assert SettingsParse(st.db) by {
      SelectionParses(st);
      IntervalParses(st);
    }
    AdminWhenSettingsParse(st, args);
  }

  /** Both settings the admin page reads parse as integers. */
  predicate SettingsParse(db: Db) {
    && PyInt(GetSetting(db, SelectedPdfKey, "0")).Some?
    && PyInt(GetSetting(db, CycleIntervalKey, "10")).Some?
  }

  /** When both stored settings parse, the admin page fails exactly for an unbindable page. */
  lemma AdminWhenSettingsParse(st: State, args: map<string, string>)
    requires SettingsParse(st.db)
    ensures Admin(st, args).AdminView? <==> PageBindable(FormInt(args, "page").GetOr(1))
  {
  }

  /** Without a readable `?page=` the admin page shows page 1, whose offset 0 SQLite can bind. */
  lemma FirstPageBindable(args: map<string, string>)
    requires FormInt(args, "page").None?
    ensures PageBindable(FormInt(args, "page").GetOr(1))
  {
    assert IsSqlInteger(0);
  }

  // ---------------------------------------------------------------------------
  // Any sequence of requests
  // ---------------------------------------------------------------------------

  /** One administrative request, or a restart of the application. */
  datatype Request =
    | UploadRequest(file: Option<Upload>, secureFilename: string -> string, token: string, now: int)
    | RenameRequest(renameId: nat, renameForm: map<string, string>)
    | DeleteRequest(deleteId: nat)
    | SelectRequest(selectId: nat)
    | SelectNewestRequest
    | SettingsRequest(settingsForm: map<string, string>)
    | Restart

  function Handle(st: State, req: Request): State {
    match req
    case UploadRequest(file, secure, token, now) => UploadPdf(st, file, secure, token, now).state
    case RenameRequest(id, form) => RenamePdf(st, id, form).state
    case DeleteRequest(id) => DeletePdfFile(st, id).state
    case SelectRequest(id) => SelectPdf(st, id).state
    case SelectNewestRequest => SelectNewest(st).state
    case SettingsRequest(form) => UpdateSettings(st, form).state
    case Restart => Startup(st)
  }

  function Run(st: State, reqs: seq<Request>): State
    decreases |reqs|
  {
    if reqs == [] then st else Run(Handle(st, reqs[0]), reqs[1..])
  }

  lemma HandlePreservesValid(st: State, req: Request)
    requires Valid(st)
    ensures Valid(Handle(st, req))
  {
    match req
    case UploadRequest(file, secure, token, now) => UploadPreservesValid(st, file, secure, token, now);
    case RenameRequest(id, form) => RenamePreservesValid(st, id, Strip(FormGet(form, "new_name", "")));
    case DeleteRequest(id) => DeletePreservesValid(st, id);
    case SelectRequest(id) => SelectPreservesValid(st, id);
    case SelectNewestRequest => SelectNewestPreservesValid(st);
    case SettingsRequest(form) => ApplySettingsPreservesValid(st, ReadSettingsForm(form));
    case Restart => StartupValid(st);
  }

  lemma {:induction false} RunPreservesValid(st: State, reqs: seq<Request>)
    requires Valid(st)
    ensures Valid(Run(st, reqs))
    decreases |reqs|
  {
    if reqs != [] {
      HandlePreservesValid(st, reqs[0]);
      RunPreservesValid(Handle(st, reqs[0]), reqs[1..]);
    }
  }

  /** Whatever requests follow the first start, stored names stay distinct, every row has its
      file, the selection is "0" or a live id, and the display shows a document exactly when
      there is one to show. */
  lemma DisplayAfterAnyRequests(files: set<string>, reqs: seq<Request>)
    ensures var st := Run(Startup(State(EmptyDb, files)), reqs);
      && Valid(st)
      && (CurrentPdf(st).Showing? <==> st.db.pdfs != map[])
      && !CurrentPdf(st).CurrentPdfFailed?
  {
    StartupValid(State(EmptyDb, files));
    RunPreservesValid(Startup(State(EmptyDb, files)), reqs);
    DisplayAvailable(Run(Startup(State(EmptyDb, files)), reqs));
  }
}

=== FILE: store.dfy ===
/** The persistence layer (models.py): the `pdf_files` table, the `settings` table and
    SQLite's AUTOINCREMENT counter, with every operation run inside one `get_db` block. */
module Store {
  import opened Wrappers

  /** The largest rowid SQLite can hand out, and the largest SQL INTEGER (a signed 64-bit
      integer). */
  const MaxRowId: nat := 0x7FFF_FFFF_FFFF_FFFF

  /** A Python `int` that sqlite3 can bind as a query parameter: one within the signed
      64-bit range. Binding any other `int` raises OverflowError. */
  predicate IsSqlInteger(x: int) {
    -(MaxRowId as int) - 1 <= x <= MaxRowId
  }

  const SelectedPdfKey := "selected_pdf_id"
  const CycleIntervalKey := "cycle_interval"
  const BackgroundColorKey := "background_color"
  const ProgressIndicatorKey := "progress_indicator"

  /** One row of `pdf_files` without its key. `upload_date` is the value of the clock
      when the row was inserted, as an integer timestamp. */
  datatype PdfFile = PdfFile(filename: string, originalName: string, uploadDate: int, fileSize: nat)

  /** A row as a `SELECT *` returns it. */
  datatype PdfRow = PdfRow(id: nat, file: PdfFile)

  /** The database: `pdf_files` keyed by id, `settings` keyed by name, and the
      `sqlite_sequence` entry of `pdf_files` (the largest id ever handed out). */
  datatype Db = Db(pdfs: map<nat, PdfFile>, settings: map<string, string>, sequence: nat)

  /** Why a transaction raised: the UNIQUE constraint on `filename`, SQLITE_FULL once the
      largest rowid has been used, or an `int` parameter outside the 64-bit range. */
  datatype DbError = DuplicateFilename | RowIdsExhausted | IntegerOverflow

  /** What a `get_db` block ends with: the body returned and the connection committed, or the
      body raised and the connection rolled back. A rolled-back outcome carries no database,
      so the caller has only the one it started from. Only the operations that bind an
      integer or insert a row can raise; the others return their value directly. */
  datatype Outcome<T> = Committed(value: T, db: Db) | RolledBack(error: DbError)

  /** A database file in which no table has been created yet. */
  const EmptyDb := Db(map[], map[], 0)

  /** `INSERT OR IGNORE INTO settings`: writes only a key that is absent. */
  function InsertOrIgnore(settings: map<string, string>, key: string, value: string): (r: map<string, string>)
    ensures key in r
    ensures key in settings ==> r == settings
    ensures key !in settings ==> r == settings[key := value]
  {
    if key in settings then settings else settings[key := value]
  }

  /** The four defaults `init_db` seeds. */
  predicate Seeded(settings: map<string, string>) {
    SelectedPdfKey in settings && CycleIntervalKey in settings
    && BackgroundColorKey in settings && ProgressIndicatorKey in settings
  }

  /** `init_db`: creates the tables if needed and seeds each default setting only when its
      key is absent; rows, the id counter and every present setting are left as they were. */
  function InitDb(db: Db): (r: Db)
    ensures r.pdfs == db.pdfs && r.sequence == db.sequence
    ensures Seeded(r.settings)
    ensures r.settings.Keys == db.settings.Keys + {SelectedPdfKey, CycleIntervalKey, BackgroundColorKey, ProgressIndicatorKey}
    ensures forall k :: k in db.settings ==> r.settings[k] == db.settings[k]
    ensures SelectedPdfKey !in db.settings ==> r.settings[SelectedPdfKey] == "0"
    ensures CycleIntervalKey !in db.settings ==> r.settings[CycleIntervalKey] == "10"
    ensures BackgroundColorKey !in db.settings ==> r.settings[BackgroundColorKey] == "#ffffff"
    ensures ProgressIndicatorKey !in db.settings ==> r.settings[ProgressIndicatorKey] == "progress"
  {
    var s := InsertOrIgnore(db.settings, SelectedPdfKey, "0");
    var s := InsertOrIgnore(s, CycleIntervalKey, "10");
    var s := InsertOrIgnore(s, BackgroundColorKey, "#ffffff");
    var s := InsertOrIgnore(s, ProgressIndicatorKey, "progress");
    Db(db.pdfs, s, db.sequence)
  }

  /** Running `init_db` again (every application start does) changes nothing. */
  lemma InitDbIdempotent(db: Db)
    ensures InitDb(InitDb(db)) == InitDb(db)
  {
  }

  /** `get_setting(key, default)`: the value of the row for `key` when there is one,
      otherwise the caller's default. */
  function GetSetting(db: Db, key: string, default: string): (v: string)
    ensures key in db.settings ==> v == db.settings[key]
    ensures key !in db.settings ==> v == default
    ensures v == default || v in db.settings.Values
  {
    if key in db.settings then db.settings[key] else default
  }

  /** `set_setting(key, value)`: `INSERT OR REPLACE`; `value` is already `str(value)`. */
  function SetSetting(db: Db, key: string, value: string): (r: Db)
    ensures r.pdfs == db.pdfs && r.sequence == db.sequence
    ensures r.settings.Keys == db.settings.Keys + {key}
  {
    db.(settings := db.settings[key := value])
  }

  /** Reading a key back after writing it gives the written value, whatever the default;
      every other key reads as before. */
  lemma SetThenGet(db: Db, key: string, value: string, other: string, default: string)
    ensures GetSetting(SetSetting(db, key, value), key, default) == value
    ensures other != key ==> GetSetting(SetSetting(db, key, value), other, default) == GetSetting(db, other, default)
  {
  }

  /** An absent key reads as the caller's default. */
  lemma GetAbsentSetting(db: Db, key: string, default: string)
    requires key !in db.settings
    ensures GetSetting(db, key, default) == default
  {
  }

  /** The stored names in use. */
  function Filenames(pdfs: map<nat, PdfFile>): set<string> {
    set k | k in pdfs :: pdfs[k].filename
  }

  /** The largest element of a non-empty set of ids, or 0 for the empty set. */
  function MaxId(ids: set<nat>): (m: nat)
    ensures forall k :: k in ids ==> k <= m
    ensures ids != {} ==> m in ids
  {
    if ids == {} then 0
    else
      MaxExists(ids);
      var m :| m in ids && forall k :: k in ids ==> k <= m;
      m
  }

  lemma {:induction false} MaxExists(ids: set<nat>)
    requires ids != {}
    ensures exists m :: m in ids && forall k :: k in ids ==> k <= m
  {
    var x :| x in ids;
    var rest := ids - {x};
    if rest != {} {
      MaxExists(rest);
      var m :| m in rest && forall k :: k in rest ==> k <= m;
      var top := if x <= m then m else x;
      forall k | k in ids ensures k <= top {
        if k != x { assert k in rest; }
      }
      assert top in ids;
    } else {
      assert ids == rest + {x};
    }
  }

  /** The id AUTOINCREMENT picks: one more than both the largest id ever handed out and the
      largest id now present. */
  function NextId(db: Db): (id: nat)
    ensures id > db.sequence
    ensures forall k :: k in db.pdfs ==> k < id
  {
    var top := MaxId(db.pdfs.Keys);
    (if top < db.sequence then db.sequence else top) + 1
  }

  /** `add_pdf`: inserts one row stamped with the clock value `now` and returns its id.
      A file size beyond the 64-bit range cannot be bound, a stored name already in use
      breaks UNIQUE and a used-up id space raises SQLITE_FULL; each rolls the transaction
      back. */
  function AddPdf(db: Db, filename: string, originalName: string, fileSize: nat, now: int): (r: Outcome<nat>)
    ensures r.RolledBack? <==> !IsSqlInteger(fileSize) || filename in Filenames(db.pdfs) || NextId(db) > MaxRowId
    ensures r.Committed? ==>
      && db.sequence < r.value <= MaxRowId
      && (forall k :: k in db.pdfs ==> k < r.value)
      && r.db.pdfs == db.pdfs[r.value := PdfFile(filename, originalName, now, fileSize)]
      && r.db.settings == db.settings
      && r.db.sequence == r.value
  {
    var id := NextId(db);
    if !IsSqlInteger(fileSize) then RolledBack(IntegerOverflow)
    else if id > MaxRowId then RolledBack(RowIdsExhausted)
    else if filename in Filenames(db.pdfs) then RolledBack(DuplicateFilename)
    else Committed(id, Db(db.pdfs[id := PdfFile(filename, originalName, now, fileSize)], db.settings, id))
  }

  /** After a successful insert the table holds exactly one more row, and stored names are
      still pairwise distinct if they were before. */
  lemma AddPdfGrowsByOne(db: Db, filename: string, originalName: string, fileSize: nat, now: int)
    requires AddPdf(db, filename, originalName, fileSize, now).Committed?
    ensures |AddPdf(db, filename, originalName, fileSize, now).db.pdfs| == |db.pdfs| + 1
    ensures DistinctFilenames(db.pdfs) ==> DistinctFilenames(AddPdf(db, filename, originalName, fileSize, now).db.pdfs)
  {
    var r := AddPdf(db, filename, originalName, fileSize, now);
    InsertFreshRow(db.pdfs, r.value, PdfFile(filename, originalName, now, fileSize));
  }

  /** Adding a row under an unused key with an unused stored name grows the table by one
      and keeps stored names pairwise distinct. */
  lemma InsertFreshRow(pdfs: map<nat, PdfFile>, id: nat, file: PdfFile)
    requires id !in pdfs && file.filename !in Filenames(pdfs)
    ensures |pdfs[id := file]| == |pdfs| + 1
    ensures DistinctFilenames(pdfs) ==> DistinctFilenames(pdfs[id := file])
  {
    assert pdfs[id := file].Keys == pdfs.Keys + {id};
    if DistinctFilenames(pdfs) {
      InsertFreshName(pdfs, id, file);
    }
  }

  lemma InsertFreshName(pdfs: map<nat, PdfFile>, id: nat, file: PdfFile)
    requires id !in pdfs && file.filename !in Filenames(pdfs)
    requires DistinctFilenames(pdfs)
    ensures DistinctFilenames(pdfs[id := file])
  {
    var grown := pdfs[id := file];
    forall a, b | a in grown && b in grown && a != b
      ensures grown[a].filename != grown[b].filename
    {
      if a == id {
        assert pdfs[b].filename in Filenames(pdfs);
      } else if b == id {
        assert pdfs[a].filename in Filenames(pdfs);
      }
    }
  }

  /** No two rows share a stored name: the UNIQUE constraint of `filename`. */
  predicate DistinctFilenames(pdfs: map<nat, PdfFile>) {
    forall a, b :: a in pdfs && b in pdfs && a != b ==> pdfs[a].filename != pdfs[b].filename
  }

  /** `get_pdf(pdf_id)`: the row with that id, or None; an id outside the 64-bit range
      raises. */
  function GetPdf(db: Db, id: int): (r: Outcome<Option<PdfRow>>)
    ensures r.RolledBack? <==> !IsSqlInteger(id)
    ensures r.Committed? ==> r.db == db && (r.value.Some? <==> id >= 0 && id as nat in db.pdfs)
    ensures r.Committed? && r.value.Some? ==> r.value.value == PdfRow(id as nat, db.pdfs[id as nat])
  {
    if !IsSqlInteger(id) then RolledBack(IntegerOverflow)
    else if id >= 0 && id as nat in db.pdfs then Committed(Some(PdfRow(id as nat, db.pdfs[id as nat])), db)
    else Committed(None, db)
  }

  /** Row `a` comes before row `b` under `ORDER BY upload_date DESC`. SQLite leaves the order
      of equal dates open; this model settles it by descending id, one order SQLite may use. */
  predicate ListedBefore(pdfs: map<nat, PdfFile>, a: nat, b: nat)
    requires a in pdfs && b in pdfs
  {
    pdfs[a].uploadDate > pdfs[b].uploadDate || (pdfs[a].uploadDate == pdfs[b].uploadDate && a > b)
  }

  predicate ListedFirst(pdfs: map<nat, PdfFile>, k: nat)
    requires k in pdfs
  {
    forall j :: j in pdfs && j != k ==> ListedBefore(pdfs, k, j)
  }

  lemma {:induction false} FirstExists(pdfs: map<nat, PdfFile>)
    requires pdfs != map[]
    ensures exists k :: k in pdfs && ListedFirst(pdfs, k)
  {
    var x :| x in pdfs;
    var rest := pdfs - {x};
    if rest != map[] {
      FirstExists(rest);
      var m :| m in rest && ListedFirst(rest, m);
      var first := if ListedBefore(pdfs, m, x) then m else x;
      forall j | j in pdfs && j != first ensures ListedBefore(pdfs, first, j) {
        if j != x && j != m { assert j in rest; }
      }
      assert ListedFirst(pdfs, first);
    } else {
      assert pdfs.Keys == rest.Keys + {x};
      assert ListedFirst(pdfs, x);
    }
  }

  /** The ids a listing holds. */
  function IdsOf(rows: seq<PdfRow>): set<nat> {
    set i | 0 <= i < |rows| :: rows[i].id
  }

  /** A listing of the table: every row exactly once, as stored, newest first. */
  predicate IsListing(pdfs: map<nat, PdfFile>, rows: seq<PdfRow>) {
    && |rows| == |pdfs|
    && IdsOf(rows) == pdfs.Keys
    && (forall i :: 0 <= i < |rows| ==> rows[i].id in pdfs && pdfs[rows[i].id] == rows[i].file)
    && (forall i, j :: 0 <= i < j < |rows| ==> rows[i].id != rows[j].id)
    && (forall i, j :: 0 <= i < j < |rows| ==> rows[i].file.uploadDate >= rows[j].file.uploadDate)
  }

  /** `SELECT * FROM pdf_files ORDER BY upload_date DESC`. */
  function Listing(pdfs: map<nat, PdfFile>): (rows: seq<PdfRow>)
    ensures IsListing(pdfs, rows)
    decreases |pdfs|
  {
    if pdfs == map[] then []
    else
      FirstExists(pdfs);
      var k :| k in pdfs && ListedFirst(pdfs, k);
      RemoveOne(pdfs, k);
      var tail := Listing(pdfs - {k});
      ListingCons(pdfs, k, tail);
      [PdfRow(k, pdfs[k])] + tail
  }

  lemma RemoveOne(pdfs: map<nat, PdfFile>, k: nat)
    requires k in pdfs
    ensures (pdfs - {k}).Keys == pdfs.Keys - {k}
    ensures |pdfs - {k}| == |pdfs| - 1
  {
    assert (pdfs - {k}).Keys == pdfs.Keys - {k};
    assert |pdfs.Keys - {k}| == |pdfs.Keys| - 1;
  }

  /** The first row followed by a listing of the others is a listing of the whole table. */
  lemma ListingCons(pdfs: map<nat, PdfFile>, k: nat, tail: seq<PdfRow>)
    requires k in pdfs && ListedFirst(pdfs, k)
    requires IsListing(pdfs - {k}, tail)
    ensures IsListing(pdfs, [PdfRow(k, pdfs[k])] + tail)
  {
    RemoveOne(pdfs, k);
    var rows := [PdfRow(k, pdfs[k])] + tail;
    ConsRows(pdfs, k, tail);
    ConsOrder(pdfs, k, tail);
    ConsIds(pdfs, k, tail);
  }

  lemma ConsRows(pdfs: map<nat, PdfFile>, k: nat, tail: seq<PdfRow>)
    requires k in pdfs
    requires forall i :: 0 <= i < |tail| ==> tail[i].id in pdfs - {k} && (pdfs - {k})[tail[i].id] == tail[i].file
    ensures var rows := [PdfRow(k, pdfs[k])] + tail;
      forall i :: 0 <= i < |rows| ==> rows[i].id in pdfs && pdfs[rows[i].id] == rows[i].file
  {
    var rows := [PdfRow(k, pdfs[k])] + tail;
    forall i | 0 <= i < |rows| ensures rows[i].id in pdfs && pdfs[rows[i].id] == rows[i].file {
      if i > 0 { assert rows[i] == tail[i - 1]; }
    }
  }

  lemma ConsOrder(pdfs: map<nat, PdfFile>, k: nat, tail: seq<PdfRow>)
    requires k in pdfs && ListedFirst(pdfs, k)
    requires forall i :: 0 <= i < |tail| ==> tail[i].id in pdfs - {k} && (pdfs - {k})[tail[i].id] == tail[i].file
    requires forall i, j :: 0 <= i < j < |tail| ==> tail[i].id != tail[j].id
    requires forall i, j :: 0 <= i < j < |tail| ==> tail[i].file.uploadDate >= tail[j].file.uploadDate
    ensures var rows := [PdfRow(k, pdfs[k])] + tail;
      && (forall i, j :: 0 <= i < j < |rows| ==> rows[i].id != rows[j].id)
      && (forall i, j :: 0 <= i < j < |rows| ==> rows[i].file.uploadDate >= rows[j].file.uploadDate)
  {
    var rows := [PdfRow(k, pdfs[k])] + tail;
    forall i, j | 0 <= i < j < |rows|
      ensures rows[i].id != rows[j].id && rows[i].file.uploadDate >= rows[j].file.uploadDate
    {
      var t := tail[j - 1];
      assert rows[j] == t;
      if i == 0 {
        assert t.id in pdfs - {k};
        assert t.id != k && pdfs[t.id] == t.file;
        assert ListedBefore(pdfs, k, t.id);
      } else {
        assert rows[i] == tail[i - 1];
      }
    }
  }

  lemma ConsIds(pdfs: map<nat, PdfFile>, k: nat, tail: seq<PdfRow>)
    requires k in pdfs
    requires IdsOf(tail) == (pdfs - {k}).Keys
    ensures IdsOf([PdfRow(k, pdfs[k])] + tail) == pdfs.Keys
  {
    var rows := [PdfRow(k, pdfs[k])] + tail;
    RemoveOne(pdfs, k);
    forall id | id in IdsOf(rows) ensures id in pdfs.Keys {
      var i :| 0 <= i < |rows| && rows[i].id == id;
      if i > 0 { assert tail[i - 1].id == id; assert id in IdsOf(tail); }
    }
    forall id | id in pdfs.Keys ensures id in IdsOf(rows) {
      if id != k {
        assert id in IdsOf(tail);
        var i :| 0 <= i < |tail| && tail[i].id == id;
        assert rows[i + 1].id == id;
      } else {
        assert rows[0].id == id;
      }
    }
  }

  /** SQLite's `LIMIT limit OFFSET offset` for a non-zero limit: a negative limit means no
      limit and a negative offset counts as 0. The result is the run of rows that starts at
      the offset, holding `limit` rows or as many as remain. */
  function LimitOffset<T>(rows: seq<T>, limit: int, offset: int): (r: seq<T>)
    ensures var start := if offset < 0 then 0 else offset;
      && (forall i :: 0 <= i < |r| ==> start + i < |rows| && r[i] == rows[start + i])
      && (start >= |rows| ==> r == [])
      && (start < |rows| && limit > 0 ==> |r| == if start + limit <= |rows| then limit else |rows| - start)
      && (start < |rows| && limit < 0 ==> |r| == |rows| - start)
  {
    var start := if offset < 0 then 0 else if offset > |rows| then |rows| else offset;
    var end := if limit < 0 || start + limit > |rows| then |rows| else start + limit;
    rows[start..end]
  }

  /** `get_all_pdfs(limit, offset)`: a falsy limit (None or 0) lists every row, newest
      first, and binds nothing; any other limit binds the limit and the offset, which raises
      when either is outside the 64-bit range, and returns that window of the listing. */
  function GetAllPdfs(db: Db, limit: Option<int>, offset: int): (r: Outcome<seq<PdfRow>>)
    ensures r.RolledBack? <==> limit.Some? && limit.value != 0 && !(IsSqlInteger(limit.value) && IsSqlInteger(offset))
    ensures r.Committed? ==> r.db == db
    ensures r.Committed? && (limit.None? || limit.value == 0) ==> IsListing(db.pdfs, r.value)
    ensures r.Committed? && limit.Some? && limit.value != 0 ==> r.value == LimitOffset(Listing(db.pdfs), limit.value, offset)
    ensures r.Committed? && limit.Some? && limit.value > 0 ==> |r.value| <= limit.value
  {
    var all := Listing(db.pdfs);
    if limit.None? || limit.value == 0 then Committed(all, db)
    else if !IsSqlInteger(limit.value) || !IsSqlInteger(offset) then RolledBack(IntegerOverflow)
    else Committed(LimitOffset(all, limit.value, offset), db)
  }

  /** `get_pdf_count`: `SELECT COUNT(*)`. */
  function GetPdfCount(db: Db): (count: nat)
    ensures count == |Listing(db.pdfs)|
  {
    |db.pdfs|
  }

  /** The count agrees with the number of rows a full listing returns. */
  lemma CountMatchesListing(db: Db)
    ensures GetAllPdfs(db, None, 0).Committed? && GetPdfCount(db) == |GetAllPdfs(db, None, 0).value|
    ensures GetAllPdfs(db, Some(0), 0).Committed? && GetPdfCount(db) == |GetAllPdfs(db, Some(0), 0).value|
  {
  }

  /** `update_pdf_name`: sets `original_name` of the row with that id; a missing id updates
      nothing, and an id outside the 64-bit range raises. */
  function UpdatePdfName(db: Db, id: int, newName: string): (r: Outcome<()>)
    ensures r.RolledBack? <==> !IsSqlInteger(id)
    ensures r.Committed? ==> r.db.pdfs.Keys == db.pdfs.Keys
    ensures r.Committed? ==> r.db.settings == db.settings && r.db.sequence == db.sequence
    ensures r.Committed? ==> forall k :: k in db.pdfs && k != id ==> r.db.pdfs[k] == db.pdfs[k]
    ensures r.Committed? && id >= 0 && id as nat in db.pdfs ==>
      r.db.pdfs[id as nat] == db.pdfs[id as nat].(originalName := newName)
    ensures r.Committed? && !(id >= 0 && id as nat in db.pdfs) ==> r.db == db
  {
    if !IsSqlInteger(id) then RolledBack(IntegerOverflow)
    else if id >= 0 && id as nat in db.pdfs then
      var k := id as nat;
      Committed((), db.(pdfs := db.pdfs[k := db.pdfs[k].(originalName := newName)]))
    else Committed((), db)
  }

  /** `delete_pdf`: removes the row with that id and returns its stored name, or returns
      None and leaves the table alone. The AUTOINCREMENT counter keeps its value. An id
      outside the 64-bit range makes the inner `get_pdf` raise, and the whole block rolls
      back. */
  function DeletePdf(db: Db, id: int): (r: Outcome<Option<string>>)
    ensures r.RolledBack? <==> !IsSqlInteger(id)
    ensures r.Committed? ==> (r.value.Some? <==> id >= 0 && id as nat in db.pdfs)
    ensures r.Committed? && r.value.Some? ==>
      r.value.value == db.pdfs[id as nat].filename && r.db.pdfs.Keys == db.pdfs.Keys - {id as nat}
    ensures r.Committed? && r.value.None? ==> r.db == db
    ensures r.Committed? ==> forall k :: k in r.db.pdfs ==> k in db.pdfs && r.db.pdfs[k] == db.pdfs[k]
    ensures r.Committed? ==> r.db.settings == db.settings && r.db.sequence == db.sequence
  {
    match GetPdf(db, id)
    case RolledBack(e) => RolledBack(e)
    case Committed(Some(row), _) => Committed(Some(row.file.filename), db.(pdfs := db.pdfs - {row.id}))
    case Committed(None, _) => Committed(None, db)
  }

  /** `get_newest_pdf`: `ORDER BY upload_date DESC LIMIT 1`. None exactly when the table is
      empty; otherwise a stored row no other row is newer than. */
  function GetNewestPdf(db: Db): (r: Option<PdfRow>)
    ensures r.None? <==> db.pdfs == map[]
    ensures r.Some? ==> r.value.id in db.pdfs && db.pdfs[r.value.id] == r.value.file
    ensures r.Some? ==> forall k :: k in db.pdfs ==> db.pdfs[k].uploadDate <= r.value.file.uploadDate
  {
    var all := Listing(db.pdfs);
    if |all| == 0 then None
    else
      assert forall k :: k in db.pdfs ==> db.pdfs[k].uploadDate <= all[0].file.uploadDate by {
        forall k | k in db.pdfs ensures db.pdfs[k].uploadDate <= all[0].file.uploadDate {
          assert k in IdsOf(all);
          var i :| 0 <= i < |all| && all[i].id == k;
        }
      }
      Some(all[0])
  }
}

=== FILE: text.dfy ===
/** The pieces of Python's string and integer semantics that the handlers rely on:
    `str.strip()`, `s.lower().endswith('.pdf')`, `int(s)` on a string and `str(n)`. */
module Text {
  import opened Wrappers

  /** Python's `str.isspace()` for one character: the characters `str.strip()` removes.
      `int()` skips the same ones around its digits, except the four information separators
      U+001C to U+001F (see `IsInfoSeparator`). The ASCII blanks are among them; no character
      of an integer literal is. */
  predicate IsSpace(c: char)
    ensures c == ' ' || c == '\t' || c == '\n' || c == '\r' || c == '\U{B}' || c == '\U{C}' ==> IsSpace(c)
    ensures IsSpace(c) ==> !IsDigit(c) && c != '+' && c != '-' && c != '_'
  {
    || '\U{9}' <= c <= '\U{D}'
    || '\U{1C}' <= c <= '\U{20}'
    || c == '\U{85}' || c == '\U{A0}' || c == '\U{1680}'
    || '\U{2000}' <= c <= '\U{200A}'
    || c == '\U{2028}' || c == '\U{2029}' || c == '\U{202F}' || c == '\U{205F}' || c == '\U{3000}'
  }

  /** Every character of `s` is whitespace (vacuously true of ""). */
  predicate AllSpace(s: string) {
    forall i :: 0 <= i < |s| ==> IsSpace(s[i])
  }

  /** `s` neither starts nor ends with whitespace. */
  predicate Trimmed(s: string) {
    |s| == 0 || (!IsSpace(s[0]) && !IsSpace(s[|s| - 1]))
  }

  /** `s.lstrip()`: drops leading whitespace, keeping a suffix of `s`. */
  function TrimStart(s: string): (r: string)
    ensures |r| <= |s| && r == s[|s| - |r|..]
    ensures AllSpace(s[..|s| - |r|])
    ensures |r| > 0 ==> !IsSpace(r[0])
  {
    if |s| > 0 && IsSpace(s[0]) then TrimStart(s[1..]) else s
  }

  /** `s.rstrip()`: drops trailing whitespace, keeping a prefix of `s`. */
  function TrimEnd(s: string): (r: string)
    ensures |r| <= |s| && r == s[..|r|]
    ensures AllSpace(s[|r|..])
    ensures |r| > 0 ==> !IsSpace(r[|r| - 1])
  {
    if |s| > 0 && IsSpace(s[|s| - 1]) then TrimEnd(s[..|s| - 1]) else s
  }

  /** `r` is `s` without its surrounding whitespace: a slice of `s` with nothing but
      whitespace before and after it, and no whitespace at its own ends. */
  predicate IsStripOf(s: string, r: string) {
    && Trimmed(r)
    && |r| <= |s|
    && exists i :: 0 <= i <= |s| - |r| && SliceAt(s, r, i)
  }

  /** `r` sits at position `i` of `s` with only whitespace before and after it. */
  predicate SliceAt(s: string, r: string, i: int) {
    0 <= i <= |s| - |r| && s[i..i + |r|] == r && AllSpace(s[..i]) && AllSpace(s[i + |r|..])
  }

  /** `s.strip()`. */
  function Strip(s: string): (r: string)
    ensures IsStripOf(s, r)
  {
    TrimBoth(s);
    TrimEnd(TrimStart(s))
  }

  /** Trimming the front and then the back leaves `s` without its surrounding whitespace. */
  lemma TrimBoth(s: string)
    ensures IsStripOf(s, TrimEnd(TrimStart(s)))
  {
    var front := TrimStart(s);
    var r := TrimEnd(front);
    var i := |s| - |front|;
    assert Trimmed(r) by {
      assert |r| > 0 ==> r[0] == front[0];
    }
    PrefixOfSuffix(s, i, |r|);
    StripWitness(s, r, i);
  }

  /** The prefix of length `n` of the suffix of `s` from `i` is the slice `s[i..i + n]`, and
      what follows it is `s[i + n..]`. */
  lemma PrefixOfSuffix(s: string, i: nat, n: nat)
    requires i + n <= |s|
    ensures s[i..][..n] == s[i..i + n]
    ensures s[i..][n..] == s[i + n..]
  {
  }

  lemma StripWitness(s: string, r: string, i: nat)
    requires Trimmed(r) && i <= |s| - |r|
    requires s[i..i + |r|] == r && AllSpace(s[..i]) && AllSpace(s[i + |r|..])
    ensures IsStripOf(s, r)
  {
    assert SliceAt(s, r, i);
  }

  /** Only one string is `s` without its surrounding whitespace, so `Strip` is determined by
      `IsStripOf`. */
  lemma StripUnique(s: string, r: string)
    requires IsStripOf(s, r)
    ensures r == Strip(s)
  {
    var i :| 0 <= i <= |s| - |r| && SliceAt(s, r, i);
    assert s[i..i + |r|] == r;
    StripUniqueAt(s, i, |r|);
  }

  /** `StripUnique` for the slice of length `n` at position `i`. */
  lemma StripUniqueAt(s: string, i: nat, n: nat)
    requires i + n <= |s| && Trimmed(s[i..i + n])
    requires AllSpace(s[..i]) && AllSpace(s[i + n..])
    ensures s[i..i + n] == Strip(s)
  {
    if n == 0 {
      SpaceAround(s, i);
      StripBlank(s);
    } else {
      assert s[i..i + n][0] == s[i] && s[i..i + n][n - 1] == s[i + n - 1];
      StripAt(s, i, n);
    }
  }

  /** Whitespace before and after position `i` makes all of `s` whitespace. */
  lemma SpaceAround(s: string, i: nat)
    requires i <= |s| && AllSpace(s[..i]) && AllSpace(s[i..])
    ensures AllSpace(s)
  {
    forall k | 0 <= k < |s| ensures IsSpace(s[k]) {
      if k < i { assert s[k] == s[..i][k]; } else { assert s[k] == s[i..][k - i]; }
    }
  }

  /** A slice at `i` with non-space ends and only whitespace around it is what stripping
      returns. */
  lemma StripAt(s: string, i: nat, n: nat)
    requires 0 < n && i + n <= |s|
    requires AllSpace(s[..i]) && !IsSpace(s[i])
    requires AllSpace(s[i + n..]) && !IsSpace(s[i + n - 1])
    ensures TrimEnd(TrimStart(s)) == s[i..i + n]
  {
    TrimStartSkips(s, i);
    TrimEndSkipsAt(s, i, n);
  }

  /** Trailing whitespace after position `i + n` of `s`, preceded by a non-space character,
      is what trimming the end of `s[i..]` drops. */
  lemma TrimEndSkipsAt(s: string, i: nat, n: nat)
    requires 0 < n && i + n <= |s| && AllSpace(s[i + n..]) && !IsSpace(s[i + n - 1])
    ensures TrimEnd(s[i..]) == s[i..i + n]
  {
    PrefixOfSuffix(s, i, n);
    TrimEndSkips(s[i..], n);
  }

  /** Dropping a run of leading whitespace that ends before a non-space character. */
  lemma {:induction false} TrimStartSkips(s: string, i: nat)
    requires i < |s| && AllSpace(s[..i]) && !IsSpace(s[i])
    ensures TrimStart(s) == s[i..]
    decreases i
  {
    if i > 0 {
      assert IsSpace(s[..i][0]);
      assert s[1..][..i - 1] == s[1..i];
      assert forall k :: 0 <= k < i - 1 ==> s[1..i][k] == s[..i][k + 1];
      TrimStartSkips(s[1..], i - 1);
      assert s[1..][i - 1..] == s[i..];
    }
  }

  /** Dropping a run of trailing whitespace that starts after a non-space character. */
  lemma {:induction false} TrimEndSkips(s: string, j: nat)
    requires 0 < j <= |s| && AllSpace(s[j..]) && !IsSpace(s[j - 1])
    ensures TrimEnd(s) == s[..j]
    decreases |s| - j
  {
    if j < |s| {
      assert IsSpace(s[j..][|s| - 1 - j]);
      var t := s[..|s| - 1];
      assert t[j..] == s[j..|s| - 1];
      assert forall k :: 0 <= k < |t| - j ==> t[j..][k] == s[j..][k];
      TrimEndSkips(t, j);
      assert t[..j] == s[..j];
    }
  }

  /** `s.strip()` is empty exactly when `s` is all whitespace. */
  lemma StripBlank(s: string)
    ensures Strip(s) == "" <==> AllSpace(s)
  {
    var front := TrimStart(s);
    if Strip(s) == "" {
      assert s == s[..|s| - |front|] + front[..];
    }
  }

  /** `s.strip()` leaves a string without whitespace at its ends alone. */
  lemma StripTrimmed(s: string)
    requires Trimmed(s)
    ensures Strip(s) == s
  {
    assert TrimStart(s) == s;
    assert TrimEnd(s) == s;
  }

  /** `c.lower()` for the characters that can lower to one of ". p d f". Outside ASCII only
      U+0130 and U+212A lower to ASCII letters ("i̇" and "k"), so a suffix test against
      ".pdf" reads the same with or without them. */
  function LowerAscii(c: char): char {
    if 'A' <= c <= 'Z' then (c as int - 'A' as int + 'a' as int) as char else c
  }

  /** `s.lower()`, letter by letter. */
  function Lower(s: string): (r: string)
    ensures |r| == |s| && forall i :: 0 <= i < |s| ==> r[i] == LowerAscii(s[i])
  {
    if |s| == 0 then "" else [LowerAscii(s[0])] + Lower(s[1..])
  }

  /** `s.startswith(prefix)`. */
  predicate StartsWith(s: string, prefix: string) {
    |prefix| <= |s| && s[..|prefix|] == prefix
  }

  /** `s.endswith(suffix)`. */
  predicate EndsWith(s: string, suffix: string) {
    |suffix| <= |s| && s[|s| - |suffix|..] == suffix
  }

  /** `s.lower().endswith('.pdf')`, checked on the last four characters. */
  predicate HasPdfSuffix(s: string)
    ensures HasPdfSuffix(s) <==> EndsWith(Lower(s), ".pdf")
  {
    LowerEndsWithPdf(s);
    |s| >= 4 && s[|s| - 4] == '.'
    && LowerAscii(s[|s| - 3]) == 'p' && LowerAscii(s[|s| - 2]) == 'd' && LowerAscii(s[|s| - 1]) == 'f'
  }

  /** The lowered text ends in ".pdf" exactly when its last four characters lower to
      '.', 'p', 'd' and 'f'. */
  lemma LowerEndsWithPdf(s: string)
    ensures EndsWith(Lower(s), ".pdf") <==>
      && |s| >= 4 && s[|s| - 4] == '.'
      && LowerAscii(s[|s| - 3]) == 'p' && LowerAscii(s[|s| - 2]) == 'd' && LowerAscii(s[|s| - 1]) == 'f'
  {
    if |s| >= 4 {
      var w := Lower(s)[|s| - 4..];
      LowerTail(s);
      PdfText(w);
      assert EndsWith(Lower(s), ".pdf") <==> w == ".pdf";
    }
  }

  /** The last four characters of the lowered text are the last four of `s`, lowered. */
  lemma LowerTail(s: string)
    requires |s| >= 4
    ensures var w := Lower(s)[|s| - 4..];
      && |w| == 4
      && w[0] == LowerAscii(s[|s| - 4]) && w[1] == LowerAscii(s[|s| - 3])
      && w[2] == LowerAscii(s[|s| - 2]) && w[3] == LowerAscii(s[|s| - 1])
  {
  }

  /** A four-character string is ".pdf" exactly when its characters are. */
  lemma PdfText(w: string)
    requires |w| == 4
    ensures w == ".pdf" <==> w[0] == '.' && w[1] == 'p' && w[2] == 'd' && w[3] == 'f'
  {
    if w[0] == '.' && w[1] == 'p' && w[2] == 'd' && w[3] == 'f' {
      assert w == ['.', 'p', 'd', 'f'];
    }
  }

  /** The rename rule: keep a name that already ends in ".pdf" (any case), else append ".pdf". */
  function WithPdfSuffix(name: string): (r: string)
    ensures HasPdfSuffix(r)
    ensures HasPdfSuffix(name) <==> r == name
    ensures !HasPdfSuffix(name) <==> r == name + ".pdf"
    ensures r[..|name|] == name
  {
    if HasPdfSuffix(name) then name else name + ".pdf"
  }

  /** Applying the rename rule twice is the same as applying it once. */
  lemma WithPdfSuffixIdempotent(name: string)
    ensures WithPdfSuffix(WithPdfSuffix(name)) == WithPdfSuffix(name)
  {
  }

  predicate IsDigit(c: char) {
    '0' <= c <= '9'
  }

  predicate AllDigits(s: string) {
    forall i :: 0 <= i < |s| ==> IsDigit(s[i])
  }

  /** A non-empty run of decimal digits: what `str(n)` produces for `n >= 0`. */
  predicate IsDecimal(s: string) {
    |s| > 0 && AllDigits(s)
  }

  /** The numeric value of a string of decimal digits, most significant digit first. */
  function DigitsValue(s: string): nat
    requires AllDigits(s)
  {
    if |s| == 0 then 0
    else DigitsValue(s[..|s| - 1]) * 10 + (s[|s| - 1] as int - '0' as int)
  }

  /** The digit part Python's `int()` accepts: ASCII digits, with single underscores allowed
      between two digits ("1_000"). */
  predicate IsDigitGroups(t: string) {
    && |t| > 0 && IsDigit(t[0]) && IsDigit(t[|t| - 1])
    && (forall i :: 0 <= i < |t| ==> IsDigit(t[i]) || t[i] == '_')
    && (forall i :: 0 <= i < |t| - 1 ==> t[i] == '_' ==> t[i + 1] != '_')
  }

  /** The digits of `t`, grouping underscores left out. */
  function DropUnderscores(t: string): (r: string)
    requires forall i :: 0 <= i < |t| ==> IsDigit(t[i]) || t[i] == '_'
    ensures AllDigits(r) && |r| <= |t|
    ensures AllDigits(t) ==> r == t
  {
    if |t| == 0 then ""
    else
      var rest := DropUnderscores(t[1..]);
      if t[0] == '_' then rest else [t[0]] + rest
  }

  /** A string of decimal digits is its own digit part. */
  lemma DecimalIsDigitGroups(t: string)
    requires IsDecimal(t)
    ensures IsDigitGroups(t) && DropUnderscores(t) == t
  {
  }

  /** The value of an accepted digit part. */
  function GroupsValue(t: string): nat
    requires IsDigitGroups(t)
  {
    DigitsValue(DropUnderscores(t))
  }

  /** CPython's default `sys.int_max_str_digits`: `int()` of a string with more digits, and
      `str()` of an integer with more digits, raise `ValueError`. */
  const MaxStrDigits: nat := 4300

  /** A digit part `int()` accepts: digit groups of at most `MaxStrDigits` digits, leading
      zeros counted and underscores not. */
  predicate AcceptedDigits(t: string) {
    IsDigitGroups(t) && |DropUnderscores(t)| <= MaxStrDigits
  }

  /** A string of decimal digits short enough for `int()` to read. */
  predicate ReadableDecimal(s: string) {
    IsDecimal(s) && |s| <= MaxStrDigits
  }

  /** The absolute value. */
  function Magnitude(x: int): nat {
    if x < 0 then -x else x
  }

  /** `str(n)` does not raise: its digits number at most `MaxStrDigits`. */
  predicate Printable(n: int) {
    |NatToString(Magnitude(n))| <= MaxStrDigits
  }

  /** `int()` on text already stripped: an optional sign, then digits with optional single
      underscores between them, at most `MaxStrDigits` digits. Anything else raises. Whatever
      it returns has a decimal text `str()` can write back. */
  function ParseInteger(t: string): (r: Option<int>)
    ensures r.Some? <==> AcceptedDigits(t) || (|t| > 1 && (t[0] == '+' || t[0] == '-') && AcceptedDigits(t[1..]))
    ensures AcceptedDigits(t) ==> r == Some(GroupsValue(t))
    ensures |t| > 1 && t[0] == '+' && AcceptedDigits(t[1..]) ==> r == Some(GroupsValue(t[1..]))
    ensures |t| > 1 && t[0] == '-' && AcceptedDigits(t[1..]) ==> r == Some(-(GroupsValue(t[1..]) as int))
    ensures ReadableDecimal(t) ==> r == Some(DigitsValue(t))
    ensures r.Some? ==> Printable(r.value)
  {
    var signed := |t| > 0 && (t[0] == '+' || t[0] == '-');
    var digits := if signed then t[1..] else t;
    if ReadableDecimal(t) then
      DecimalIsDigitGroups(t);
      DigitsFit(t);
      Some(DigitsValue(t))
    else if AcceptedDigits(digits) then
      GroupsFit(digits);
      var v: int := GroupsValue(digits);
      Some(if t[0] == '-' then -v else v)
    else None
  }

  /** `10^k`. */
  function Pow10(k: nat): (p: nat)
    ensures p >= 1
  {
    if k == 0 then 1 else 10 * Pow10(k - 1)
  }

  /** A string of `k` digits has a value below `10^k`. */
  lemma {:induction false} DigitsBelowPow10(d: string)
    requires AllDigits(d)
    ensures DigitsValue(d) < Pow10(|d|)
  {
    if |d| > 0 {
      DigitsBelowPow10(d[..|d| - 1]);
    }
  }

  /** `str(n)` of a number below `10^k` has at most `k` digits. */
  lemma {:induction false} NatToStringLength(n: nat, k: nat)
    requires k >= 1 && n < Pow10(k)
    ensures |NatToString(n)| <= k
  {
    if n >= 10 {
      assert Pow10(1) == 10;
      assert k != 1;
      NatToStringLength(n / 10, k - 1);
    }
  }

  /** Writing back the value of a digit string takes no more digits than it had. */
  lemma DigitsFit(d: string)
    requires IsDecimal(d)
    ensures |NatToString(DigitsValue(d))| <= |d|
  {
    DigitsBelowPow10(d);
    NatToStringLength(DigitsValue(d), |d|);
  }

  /** Writing back the value of a digit part takes no more digits than it had. */
  lemma GroupsFit(t: string)
    requires IsDigitGroups(t)
    ensures |NatToString(GroupsValue(t))| <= |DropUnderscores(t)|
  {
    assert DropUnderscores(t)[0] == t[0];
    DigitsFit(DropUnderscores(t));
  }

  /** The information separators U+001C to U+001F: whitespace to `str.isspace()`, but `int()`
      maps only non-ASCII whitespace to a blank and then skips only the ASCII blanks, so it
      raises on them. */
  predicate IsInfoSeparator(c: char) {
    '\U{1C}' <= c <= '\U{1F}'
  }

  /** `s` contains an information separator somewhere. */
  predicate HasInfoSeparator(s: string) {
    exists i :: 0 <= i < |s| && IsInfoSeparator(s[i])
  }

  /** Python's `int(s)` on a string: surrounding whitespace other than the information
      separators, an optional sign and at least one ASCII digit, at most `MaxStrDigits` of
      them. `None` stands for the `ValueError` Python raises on anything else. A short enough
      string of decimal digits reads as its value, a longer one raises, and so does any text
      holding an information separator. */
  function PyInt(s: string): (r: Option<int>)
    ensures ReadableDecimal(s) ==> r == Some(DigitsValue(s))
    ensures IsDecimal(s) && |s| > MaxStrDigits ==> r.None?
    ensures HasInfoSeparator(s) ==> r.None?
    ensures r.Some? ==> Printable(r.value)
  {
    if HasInfoSeparator(s) then None
    else if IsDecimal(s) then
      assert !IsSpace(s[0]) && !IsSpace(s[|s| - 1]);
      StripTrimmed(s);
      DecimalParses(s);
      ParseInteger(Strip(s))
    else ParseInteger(Strip(s))
  }

  /** `int()` of stripped decimal digits reads their value when there are at most
      `MaxStrDigits` of them, and raises otherwise. */
  lemma DecimalParses(s: string)
    requires IsDecimal(s)
    ensures ParseInteger(s) == if |s| <= MaxStrDigits then Some(DigitsValue(s)) else None
  {
    DecimalIsDigitGroups(s);
    assert !(s[0] == '+' || s[0] == '-');
  }

  /** Whitespace around the digits, none of it an information separator, is skipped:
      `int()` reads the padded text as the digits alone. */
  lemma PyIntOfPadded(front: string, digits: string, back: string)
    requires AllSpace(front) && AllSpace(back) && ReadableDecimal(digits)
    requires !HasInfoSeparator(front) && !HasInfoSeparator(back)
    ensures PyInt(front + digits + back) == Some(DigitsValue(digits))
  {
    assert !IsSpace(digits[0]) && !IsSpace(digits[|digits| - 1]);
    StripPadded(front, digits, back);
    assert !HasInfoSeparator(digits) by {
      forall k | 0 <= k < |digits| ensures !IsInfoSeparator(digits[k]) {
        assert IsDigit(digits[k]);
      }
    }
    NoSeparatorConcat(front, digits);
    NoSeparatorConcat(front + digits, back);
    DecimalParses(digits);
  }

  /** Stripping whitespace padding off a trimmed string gives that string back. */
  lemma StripPadded(front: string, r: string, back: string)
    requires AllSpace(front) && AllSpace(back) && Trimmed(r)
    ensures Strip(front + r + back) == r
  {
    var s := front + r + back;
    var i := |front|;
    assert s[i..i + |r|] == r;
    assert s[..i] == front && s[i + |r|..] == back;
    assert SliceAt(s, r, i);
    StripUnique(s, r);
  }

  /** Joining two strings without information separators gives none. */
  lemma NoSeparatorConcat(a: string, b: string)
    requires !HasInfoSeparator(a) && !HasInfoSeparator(b)
    ensures !HasInfoSeparator(a + b)
  {
    forall k | 0 <= k < |a + b| ensures !IsInfoSeparator((a + b)[k]) {
      if k < |a| { assert (a + b)[k] == a[k]; } else { assert (a + b)[k] == b[k - |a|]; }
    }
  }

  /** `int()` raises on empty or all-whitespace text. */
  lemma PyIntOfBlank(s: string)
    requires AllSpace(s)
    ensures PyInt(s) == None
  {
    StripBlank(s);
  }

  function DigitChar(d: nat): (c: char)
    requires d < 10
    ensures IsDigit(c) && c as int - '0' as int == d
  {
    ('0' as int + d) as char
  }

  /** Python's `str(n)` for a non-negative integer: decimal digits, no leading zero. */
  function NatToString(n: nat): (r: string)
    ensures IsDecimal(r)
    ensures r[0] == '0' ==> n == 0 && r == "0"
  {
    if n < 10 then [DigitChar(n)] else NatToString(n / 10) + [DigitChar(n % 10)]
  }

  lemma {:induction false} DigitsOfNatToString(n: nat)
    ensures DigitsValue(NatToString(n)) == n
  {
    var s := NatToString(n);
    if n >= 10 {
      DigitsOfNatToString(n / 10);
      assert s[..|s| - 1] == NatToString(n / 10);
    }
  }

  /** `int(str(n)) == n` whenever `str(n)` has at most `MaxStrDigits` digits, and `int()`
      raises on a longer one: every id or interval the handlers write reads back as written. */
  lemma PyIntOfNatToString(n: nat)
    ensures |NatToString(n)| <= MaxStrDigits ==> PyInt(NatToString(n)) == Some(n)
    ensures |NatToString(n)| > MaxStrDigits ==> PyInt(NatToString(n)) == None
  {
    DigitsOfNatToString(n);
  }

  /** The "track the newest" selection reads as 0. */
  lemma PyIntOfZero()
    ensures PyInt("0") == Some(0)
  {
    assert IsDecimal("0");
    assert DigitsValue("0") == 0;
  }

  /** The default interval text reads as 10. */
  lemma PyIntOfTen()
    ensures PyInt("10") == Some(10)
  {
    assert IsDecimal("10");
    assert DigitsValue("1") == 1;
    assert DigitsValue("10") == 10;
  }

  /** `str(n) == "0"` only for zero. */
  lemma NatToStringZero(n: nat)
    ensures NatToString(n) == "0" <==> n == 0
  {
  }
}

=== FILE: wrappers.dfy ===
/** Failure-carrying datatypes shared by the rest of the model. */
module Wrappers {

  /** A value that may be absent: Python's `None` versus a value. */
  datatype Option<+T> = None | Some(value: T) {

    /** The carried value, or `default` when there is none (Python's `x or default`). */
    function GetOr(default: T): T {
      match this
      case Some(v) => v
      case None => default
    }
  }
}
